=== FILE: README.md ===
# GitLab bridge for the Concord controller: a Dafny model

The bridge takes tasks from the Concord controller and carries them out on
GitLab. A task is claimed with a `startTask` JSON-RPC call (the *ack*) and is
finished with a `completeTask` call (a *report*) that carries the task id and
a status. There are two executors:

- the **pipeline** executor resolves a project, checks a ref, finds or
  creates the dedicated trigger, fires it, and for a synchronous task polls
  the pipeline until it is finished; cancelling a task cancels the running
  pipelines whose `concord_task_id` variable equals the one in the task's
  options;
- the **project** executor looks up the project `namespace/name`, edits it
  when it is found, and otherwise creates a project `name` (in the token's
  own namespace).

The model replaces every network call with a scripted reply. The scripts are:

- broker results: an error object, a number, or a non-number;
- branch, trigger and pipeline listings;
- trigger-run results;
- a finite sequence of pipeline statuses;
- pipeline variables;
- lookup, creation and cancellation outcomes.

Each workflow is then a pure function from a task and its script to a `Run`:

- how it ended: returned an error or nil, panicked, or still polling when the
  status replies run out;
- the task status it left;
- the calls it made, in order.

Statements such as "no call was made" and "exactly one report, with status
X" are statements about that trace. `Completions(trace)` lists the statuses
the trace reports.

Files and modules:

- `domain.dfy` (`Domain`): tasks, options, provider records, replies, effects
  and runs.
- `text.dfy` (`Text`): the parts of Go's `strings`/`strconv` the code uses.
  Each comes with its inverse: `Split` with `Join`, `Itoa` with `Atoi`, and
  "." → "%2E" with its restoration.
- `utils.dfy` (`Utils`): `parseID`, `pathEscape`, `ValidateEnv`.
- `client.dfy` (`Client`): the status tables, the float-to-int truncation of
  broker results, `RequestAck` and `CompleteTask`.
- `pipelines.dfy` (`Pipelines`): the pipeline executor.
- `projects.dfy` (`Projects`): the project executor.
- `executors.dfy` (`Executors`): `NewGitlabClient` and dispatch over the two
  executors.

The Go run-time panics the code can hit are outcomes of the model, not
preconditions. These are:

- a nil project record;
- options that are the JSON literal `null`;
- a nil `Variables` map on assignment;
- a broker result that is not a number, at `result.(float64)`.

A broker result counts as success when `int(result)` is 0. Go's `int(f)`
truncates toward zero, so this is every number strictly between -1 and 1.

Where the code does something other than its names, comments and dead
branches suggest, the model follows the code:

- On the pipeline path, a decode or resolution failure after a granted ack
  returns without a report. The status-error branch at
  src/pipelines.go:190-196 can never be taken, because `err` is nil there
  (`StartTaskEarlyErrorIsNotReported`).
- The `token` of the pipeline options is never used: the trigger runs with
  the trigger's own token (`StartTaskIgnoresToken`).
- Cancelling matches pipeline variables against the options'
  `Variables["concord_task_id"]`, not the task's own id, which plays no part
  (`CancelTaskIgnoresTaskId`). A nil map or a missing key matches the value
  "" (`WantedTaskId`).
- An error from listing the triggers is never looked at; it is treated as an
  empty listing (`GetTrigger`).
- The project executor reports "completed", while a successful pipeline is
  reported as "complete".
- A broker result that is not a number does not fail closed; it panics
  (`RequestAck`, `CompleteTask`).
- An asynchronous pipeline task is not reported once its pipeline has been
  triggered (`StartTaskAsyncIsNotReported`). Errors before that, from the
  branch listing, an unknown ref or the trigger, are reported as "error" as
  for a synchronous task.
- The project executor's namespace only forms the lookup key
  "namespace/name". A project that is not found is created with name and
  path `name` and no namespace, so it lands in the token owner's namespace
  (`Ensure`).
- On the project path, the error checked after an edit is the lookup's
  error. The edit's own error is dropped (`StartTaskIgnoresEditError`).

## Model

| member | source | states |
|---|---|---|
| `Client.IsFinished` | src/client.go:103-114 | true exactly for failed, cancelled, canceled, success, manual and skipped; false for every other string |
| `Client.ConcordStatus` | src/client.go:116-127 | failed→error, cancelled/canceled→cancelled, success→complete, manual→manual, skipped→skipped; the result is non-empty exactly for finished statuses, so any other input gives "" |
| `Client.Truncate` | src/client.go:141 | Go's `int(f)`: the integer part toward zero, within one of the input and on the same side of zero |
| `Client.TruncateIsZero` | src/client.go:141-149 | a result code counts as 0 exactly on the open interval (-1, 1) |
| `Client.HalfIsSuccess` | src/client.go:141-149 | 0.5 and -0.5 count as success; 1.0 and -1.0 do not |
| `Client.CompletionsAreReported` | src/client.go:189-206 | every reported status is the status of a `completeTask` call of the trace, and a trace without such a call reports nothing |
| `Client.RequestAck` | src/client.go:129-151 | an empty key makes no call and refuses; otherwise exactly one `startTask` call with the key; an error object refuses; granted iff the number truncates to 0; a non-number panics |
| `Client.CompleteTask` | src/client.go:189-206 | exactly one `completeTask` call carrying {id, status}; succeeds iff there is no error object and the number truncates to 0; success iff no error; an error object's message becomes the error; a non-number panics |
| `Executors.NewGitlabClient` | src/client.go:153-187 | a missing or empty GITLAB_TOKEN fails first, then GITLAB_BASE_URL, then a base URL the client refuses; only then "pipeline" yields the pipeline executor, "project" the project executor, and any other type a no-client error |
| `Executors.StartTaskNeedsPendingAndAck` | src/client.go:40-43 | for either executor: a non-pending task gives nil with no call; a refused ack gives nil with only the ack call |
| `Executors.StartTaskLastReportIsFinalStatus` | src/client.go:40-43 | for either executor: the last report equals the status left behind, and a run without a report leaves the status unchanged |
| `Executors.CancelTaskNeverReports` | src/client.go:40-43 | for either executor: cancelling sends no report and keeps the status |
| `Utils.ParseId` | src/utils.go:14-23 | an int becomes its canonical decimal string, which reads back as the same int; a string is returned unchanged; any other kind is an invalid-id error |
| `Text.ItoaRoundTrip` | src/utils.go:17 | `strconv.Itoa` output is canonical decimal and parses back to the number |
| `Utils.PathEscape` | src/utils.go:27-29 | the result has no "."; when the abstract `url.PathEscape` output has no "%2E" of its own, turning "%2E" back into "." recovers it exactly |
| `Text.RestoreReplace` | src/utils.go:28 | replacing every "." with "%2E" loses nothing on input without its own "%2E" |
| `Utils.ValidateEnv` | src/utils.go:31-42 | the value is returned iff the variable is set and non-empty; unset and empty are distinct errors |
| `Text.JoinSplit` | src/pipelines.go:53 | splitting on "/" loses nothing: joining the pieces gives the path back |
| `Text.LastPiece` | src/pipelines.go:53-58 | the last piece of a split is the suffix after the last "/"; without a "/" it is the whole string |
| `Pipelines.SetProjectId` | src/pipelines.go:40-65 | a nil project panics; id > 0 gives the decimal id whatever the path is, and leaves the name alone; otherwise a non-empty path becomes the id and its last "/"-segment the name; a path without "/" is an error; neither id nor path is an error |
| `Pipelines.ValidateRef` | src/pipelines.go:91-103 | one branch listing; valid iff the ref equals a listed branch name exactly; a listing error is passed on |
| `Pipelines.HasBranch` | src/pipelines.go:94-100 | true iff some listed name equals the ref |
| `Pipelines.FindTrigger` | src/pipelines.go:150-156 | the position of the first trigger described "concordTrigger", or none when no trigger is |
| `Pipelines.GetTrigger` | src/pipelines.go:147-168 | a listing with our trigger returns its first one, with only the listing call; otherwise exactly one "concordTrigger" is created and its outcome returned; a listing error counts as no trigger |
| `Pipelines.TriggerPipeline` | src/pipelines.go:255-277 | a trigger error is passed on; otherwise one run call on the task's ref with the trigger's token and the task's variables; a run error or a missing pipeline is an error; else the pipeline's id |
| `Pipelines.SettleIndex` | src/pipelines.go:279-294 | the first status reply that is an error or a finished status; every earlier one is an unfinished status |
| `Pipelines.Watch` | src/pipelines.go:279-294 | the watch ends at the first finished status, with its mapped status, or at the first read error, with status "error" and the error; polls alternate with 10-second sleeps; running out of replies leaves it still polling |
| `Pipelines.Prepare` | src/pipelines.go:176-200 | a decode or resolution error is returned; null options, a nil project or a nil variable map panic; a resolved project with a variable map always gives a prepared task, whose variables gain "concord_task_id" = task id and keep everything else, and whose empty ref becomes "master" |
| `Pipelines.FailTask` | src/pipelines.go:201-225 | the error path sets status "error", makes exactly one "error" report and returns the error, unless the report panics |
| `Pipelines.StartTask` | src/pipelines.go:170-175 | a non-pending task gives nil with no call; a refused ack gives nil after the ack call alone; an ack that panics stops the run |
| `Pipelines.StartTaskReportsFinalStatus` | src/pipelines.go:170-244 | for every task and script: no report and an unchanged status, or exactly one report that equals the status left behind |
| `Pipelines.LaunchReportsFinalStatus` | src/pipelines.go:198-240 | after preparation, the run reports at most once, and what it reports is the status it leaves |
| `Pipelines.StartTaskEarlyErrorIsNotReported` | src/pipelines.go:176-196 | a decode or resolution error after a granted ack is returned after the ack call alone: no report, and the status is unchanged |
| `Pipelines.StartTaskPreparePanics` | src/pipelines.go:176-188 | null options, a nil project or a nil variable map after a granted ack panic with only the ack call made, no report and the status unchanged |
| `Pipelines.StartTaskBranchListingError` | src/pipelines.go:201-208 | a failed branch listing gives the calls ack, branch listing, "error" report; the status becomes "error" and the provider's error is returned |
| `Pipelines.StartTaskTriggerError` | src/pipelines.go:219-226 | a failed trigger creation or run gives the calls up to the trigger, then one "error" report; the status becomes "error" and the trigger's error is returned |
| `Pipelines.StartTaskUnknownRef` | src/pipelines.go:198-218 | a ref that is not a branch gives the calls ack, branch listing, "error" report; the status becomes "error" and the not-found error is returned; an empty ref was checked as "master" |
| `Pipelines.TriggerRunCarriesTaskId` | src/pipelines.go:187-188 | the trigger run uses the task's non-empty ref and the trigger's token; its variables carry "concord_task_id" = the task id |
| `Pipelines.StartTaskIgnoresToken` | src/pipelines.go:260-263 | changing the token in the options changes nothing in the run |
| `Pipelines.StartTaskAsyncIsNotReported` | src/pipelines.go:228 | an asynchronous task returns nil after the trigger run, with no report and an unchanged status |
| `Pipelines.FinishReportsOutcome` | src/pipelines.go:228-240 | the first finished status is reported once, mapped, and becomes the status; a refused report returns its error; a failed read returns the error without a report |
| `Pipelines.StartTaskSyncReportsOutcome` | src/pipelines.go:228-240 | a synchronous task reports the mapped first finished status exactly once and returns nil iff that report is accepted; a status-read error returns without a report |
| `Pipelines.CancelTaskIgnoresTaskId` | src/pipelines.go:129 | the task's own id has no effect on cancelling: only the options' "concord_task_id" variable is matched |
| `Pipelines.CancelMatching` | src/pipelines.go:128-141 | only cancellations of this pipeline; one per matching variable when they succeed, and none when no variable matches; the first failed cancellation aborts with its error after that single call |
| `Pipelines.Scan` | src/pipelines.go:122-143 | reads variables and cancels only, always in the task's project, and only on pipelines of the listing that are running |
| `Pipelines.ScanCancelsSelected` | src/pipelines.go:122-143 | cancels only running pipelines whose variables carry the wanted id; when no call fails, cancels every such pipeline |
| `Pipelines.ScanStopsAtFirstFailure` | src/pipelines.go:122-144 | nil iff no variable read and no cancellation fails; otherwise the error is that of the first listed pipeline whose call fails (every earlier one succeeds), and that failed call is the last one made |
| `Pipelines.CancelTask` | src/pipelines.go:105-145 | never reports and never changes the status; a decode error or a resolution error is returned with no call; null options or a nil project panic; otherwise the pipeline listing comes first, and a listing error is returned after that one call |
| `Pipelines.CancelTaskScansListing` | src/pipelines.go:116-145 | after a successful listing, the calls are the listing and then exactly the scan's calls, and cancelling returns the scan's result |
| `Pipelines.CancelTaskCancelsMatches` | src/pipelines.go:116-145 | after one pipeline listing, cancels only matching running pipelines; nil exactly when no call fails, and then every matching running pipeline was cancelled |
| `Projects.Ensure` | src/projects.go:43-59 | looks up "namespace/name"; with nothing found, creates the project with name = path = name and passes on the creation error; otherwise edits the found id and passes on the lookup error |
| `Projects.Fail` | src/projects.go:61-66 | status "error", exactly one "error" report, the error returned unless the report panics |
| `Projects.StartTask` | src/projects.go:27-42 | a non-pending task gives nil with no call; a refused ack gives nil with only the ack; a decode failure reports "error" once and returns the decode error |
| `Projects.CancelTask` | src/projects.go:21-25 | always nil, no call, status unchanged |
| `Projects.SucceedReports` | src/projects.go:67-75 | reports "completed"; an accepted report returns nil; a refused one is followed by an "error" report, leaves status "error" and returns the refusal's error |
| `Projects.StartTaskReportsFinalStatus` | src/projects.go:27-79 | a claimed task is reported once or twice and the last report is its final status; an unclaimed task is never reported and keeps its status |
| `Projects.StartTaskLooksUpThenCreatesOrEdits` | src/projects.go:43-59 | after the ack: lookup of "namespace/name", then a creation (nothing found) or an edit of the found id |
| `Projects.StartTaskNullOptions` | src/projects.go:33-51 | with options that are JSON null, the lookup is for "/"; with nothing found a project with empty name and path is created, and with a match that id is edited |
| `Projects.StartTaskIgnoresEditError` | src/projects.go:58 | the edit's outcome changes nothing in the run |
| `Projects.StartTaskProviderError` | src/projects.go:61-66 | a creation error, or a lookup error on the edit path, is reported once as "error" and returned |
| `Projects.StartTaskReportRefused` | src/projects.go:67-75 | a refused "completed" report is followed by an "error" report; the status becomes "error" and the refusal's error is returned, or the run panics when the second reply is not a number |
| `Projects.StartTaskSucceeds` | src/projects.go:67-78 | with no error and an accepted report: one "completed" report, status "completed", nil |

## Left out

- src/main.go, the connection loop and the dispatch of tasks, is not part of
  this model.
- The HTTP and JSON body of `JsonRPCServiceBroker.Call`
  (src/client.go:64-101) is left out. A call is one `BrokerCall` effect
  answered by a scripted reply. The controller host is not part of the
  effect.
- The request building of `GetPipelineVars` (src/pipelines.go:69-89) is left
  out. Its result is the scripted variables reply of each listed pipeline.
  `GetPipelineStatus` (src/pipelines.go:246-253) is likewise one scripted
  status reply per poll.
- JSON decoding is left out. Options arrive already decoded as a value, the
  literal null, or a decode error.
- `url.PathEscape` stays an abstract function argument of `PathEscape`.
- The provider client's URL parsing in `SetBaseURL` stays an abstract
  predicate of `NewGitlabClient`.
- Logging is left out, and so is the log line after `return false` in
  `RequestAck`, which can never run.
- `time.Sleep` is recorded as a `Sleep` effect and not performed.
- Concurrency between tasks, and the controller's choice of which ack to
  grant, lie outside the program.
- The endless poll loop cannot end in a total function, so the model
  stops when the status replies run out and reports the run as `Watching`.
- Client.Truncate: a float64 outside Go's `int` range converts to an
  implementation-defined value in Go. The model truncates every real
  exactly.
- Projects.Ensure: the created or found project record is only logged, so
  the model keeps just its id.
- Pipelines.CancelMatching: the cancelled pipeline returned by the provider
  is only logged, so a cancellation reply is just success or an error
  message.
- Pipelines.CancelMatching: each listed pipeline has one scripted
  cancellation reply, and it answers every cancellation of that pipeline.
  The code makes a separate call for each matching variable, and those calls
  could in principle be answered differently.

=== FILE: client.dfy ===
/**
 The status mapper and the controller client of src/client.go: which
 provider pipeline states are terminal, how they translate into the
 controller's vocabulary, and the two JSON-RPC verbs `startTask` (the ack)
 and `completeTask`, each over one scripted broker reply.
 */
module Client {
  import opened Domain

  const TaskStatusError := "error"
  const TaskStatusCompleted := "completed"

  const AckMethod := "startTask"
  const CompleteMethod := "completeTask"

  // ---------------------------------------------------------------- status mapping

  /** The table behind `IsFinished`; a missing key reads as false. */
  const FinishedStates: map<string, bool> := map[
    "failed" := true,
    "cancelled" := true,
    "canceled" := true,
    "success" := true,
    "manual" := true,
    "skipped" := true]

  /** The table behind `ConcordStatus`; a missing key reads as "". */
  const ConcordStates: map<string, string> := map[
    "failed" := "error",
    "cancelled" := "cancelled",
    "canceled" := "cancelled",
    "success" := "complete",
    "manual" := "manual",
    "skipped" := "skipped"]

  /** A pipeline in `status` will not change any more. */
  function IsFinished(status: string): (r: bool)
    ensures r <==> status in {"failed", "cancelled", "canceled", "success", "manual", "skipped"}
  {
    status in FinishedStates && FinishedStates[status]
  }

  /** The controller's name for a terminal provider status; "" otherwise. */
  function ConcordStatus(status: string): (r: string)
    ensures status == "failed" ==> r == "error"
    ensures status == "cancelled" || status == "canceled" ==> r == "cancelled"
    ensures status == "success" ==> r == "complete"
    ensures status == "manual" ==> r == "manual"
    ensures status == "skipped" ==> r == "skipped"
    ensures r != "" <==> IsFinished(status)
  {
    if status in ConcordStates then ConcordStates[status] else ""
  }

  // ---------------------------------------------------------------- float64 -> int

  /** Go's conversion `int(f)` of a float64: truncation toward zero. */
  function Truncate(x: real): (n: int)
    ensures x >= 0.0 ==> 0 <= n && n as real <= x < n as real + 1.0
    ensures x < 0.0 ==> n <= 0 && n as real - 1.0 < x <= n as real
  {
    if x >= 0.0 then x.Floor else -((-x).Floor)
  }

  /** A result code counts as success exactly on the open interval (-1, 1). */
  lemma TruncateIsZero(x: real)
    ensures Truncate(x) == 0 <==> -1.0 < x < 1.0
  {
  }

  /** 0.5 truncates to 0, so a reply of 0.5 counts as success. */
  lemma HalfIsSuccess()
    ensures Truncate(0.5) == 0 && Truncate(-0.5) == 0
    ensures Truncate(1.0) == 1 && Truncate(-1.0) == -1
  {
  }

  // ---------------------------------------------------------------- replies

  /** The broker answered with a number that truncates to 0. */
  predicate Accepted(reply: RpcReply)
  {
    reply.Answered? && reply.value.Number? && -1.0 < reply.value.x < 1.0
  }

  /** The broker answered without an error object but with a non-number:
      the type assertion `result.(float64)` panics. */
  predicate Crashes(reply: RpcReply)
  {
    reply.Answered? && reply.value.NotNumber?
  }

  function AckCall(key: string): Effect
  {
    BrokerCall(AckMethod, map["key" := key])
  }

  function CompleteCall(id: string, status: string): Effect
  {
    BrokerCall(CompleteMethod, map["id" := id, "status" := status])
  }

  /** The calls an ack makes: none for an empty key, else one `startTask`. */
  function AckTrace(key: string): seq<Effect>
  {
    if key == "" then [] else [AckCall(key)]
  }

  /** The ack is granted: a non-empty key and an accepted reply. */
  predicate Granted(key: string, reply: RpcReply)
  {
    key != "" && Accepted(reply)
  }

  /** The ack panics: a call was made and its result was not a number. */
  predicate AckCrashes(key: string, reply: RpcReply)
  {
    key != "" && Crashes(reply)
  }

  // ---------------------------------------------------------------- the two verbs

  /** `RequestAck`: claim the task. Fails closed: an empty key makes no
      call, an error object or a non-zero code refuses; only a code that
      truncates to 0 grants. A non-number result panics. */
  function RequestAck(key: string, reply: RpcReply): (r: Traced<Flow<bool>>)
    ensures r.trace == AckTrace(key)
    ensures key == "" ==> r.result == Normal(false) && r.trace == []
    ensures key != "" && reply.ErrorObject? ==> r.result == Normal(false)
    ensures r.result == Normal(true) <==> Granted(key, reply)
    ensures r.result.Panic? <==> AckCrashes(key, reply)
    ensures r.result.Panic? ==> r.result.reason == FailedTypeAssertion
  {
    if key == "" then Traced(Normal(false), [])
    else
      var call := [AckCall(key)];
      match reply
      case ErrorObject(_) => Traced(Normal(false), call)
      case Answered(NotNumber) => Traced(Panic(FailedTypeAssertion), call)
      case Answered(Number(x)) => Traced(Normal(Truncate(x) == 0), call)
  }

  /** What `CompleteTask` returns: success, and the error when not. */
  datatype Completion = Completion(ok: bool, err: Option<Error>)

  /** `CompleteTask`: one `completeTask` call carrying exactly the task's id
      and status. Succeeds iff the reply is a number truncating to 0; an
      error object or another code fail with an error; a non-number panics. */
  function CompleteTask(id: string, status: string, reply: RpcReply): (r: Traced<Flow<Completion>>)
    ensures r.trace == [BrokerCall(CompleteMethod, map["id" := id, "status" := status])]
    ensures r.result.Panic? <==> Crashes(reply)
    ensures r.result.Normal? ==> (r.result.value.ok <==> Accepted(reply))
    ensures r.result.Normal? ==> (r.result.value.ok <==> r.result.value.err.None?)
    ensures reply.ErrorObject? ==> r.result == Normal(Completion(false, Some(RpcError(reply.message))))
  {
    var call := [CompleteCall(id, status)];
    match reply
    case ErrorObject(message) => Traced(Normal(Completion(false, Some(RpcError(message)))), call)
    case Answered(NotNumber) => Traced(Panic(FailedTypeAssertion), call)
    case Answered(Number(x)) =>
      var code := Truncate(x);
      if code != 0 then Traced(Normal(Completion(false, Some(NonZeroResult(code)))), call)
      else Traced(Normal(Completion(true, None)), call)
  }

  // ---------------------------------------------------------------- completions in a trace

  predicate IsCompletion(e: Effect)
  {
    e.BrokerCall? && e.rpcMethod == CompleteMethod && "status" in e.params
  }

  /** The statuses reported by the `completeTask` calls of a trace, in order. */
  function Completions(trace: seq<Effect>): (statuses: seq<string>)
    ensures |statuses| <= |trace|
  {
    if |trace| == 0 then []
    else
      (if IsCompletion(trace[0]) then [trace[0].params["status"]] else [])
      + Completions(trace[1..])
  }

  /** Every reported status is the status of a `completeTask` call of the
      trace, and a trace without such a call reports nothing. */
  lemma {:induction false} CompletionsAreReported(trace: seq<Effect>)
    ensures forall k :: 0 <= k < |Completions(trace)| ==>
      exists i :: 0 <= i < |trace| && IsCompletion(trace[i]) && trace[i].params["status"] == Completions(trace)[k]
    ensures (forall i :: 0 <= i < |trace| ==> !IsCompletion(trace[i])) ==> Completions(trace) == []
  {
    if |trace| > 0 {
      CompletionsAreReported(trace[1..]);
      var head := if IsCompletion(trace[0]) then [trace[0].params["status"]] else [];
      assert Completions(trace) == head + Completions(trace[1..]);
      forall k | 0 <= k < |Completions(trace)|
        ensures exists i :: 0 <= i < |trace| && IsCompletion(trace[i]) && trace[i].params["status"] == Completions(trace)[k]
      {
        if k < |head| {
          assert IsCompletion(trace[0]) && trace[0].params["status"] == Completions(trace)[k];
        } else {
          assert Completions(trace)[k] == Completions(trace[1..])[k - |head|];
          var i :| 0 <= i < |trace[1..]| && IsCompletion(trace[1..][i])
            && trace[1..][i].params["status"] == Completions(trace[1..])[k - |head|];
          assert trace[i + 1] == trace[1..][i];
        }
      }
    } else {
      assert Completions(trace) == [];
    }
  }

  lemma {:induction false} CompletionsAppend(a: seq<Effect>, b: seq<Effect>)
    ensures Completions(a + b) == Completions(a) + Completions(b)
  {
    if |a| > 0 {
      assert (a + b)[0] == a[0];
      assert (a + b)[1..] == a[1..] + b;
      CompletionsAppend(a[1..], b);
      var head := if IsCompletion(a[0]) then [a[0].params["status"]] else [];
      assert Completions(a + b) == head + Completions(a[1..] + b);
      assert Completions(a) == head + Completions(a[1..]);
    } else {
      assert a + b == b;
    }
  }

  /** The reports of a run preceded by other calls. */
  lemma PrependCompletions(before: seq<Effect>, run: Run)
    ensures Completions(Prepend(before, run).trace) == Completions(before) + Completions(run.trace)
  {
    CompletionsAppend(before, run.trace);
  }

  /** A trace made only of provider calls and acks reports nothing. */
  lemma {:induction false} NoCompletions(trace: seq<Effect>)
    requires forall i :: 0 <= i < |trace| ==> !IsCompletion(trace[i])
    ensures Completions(trace) == []
  {
    if |trace| > 0 {
      NoCompletions(trace[1..]);
    }
  }

  lemma CompletionsOfCall(id: string, status: string)
    ensures Completions([CompleteCall(id, status)]) == [status]
  {
    assert [CompleteCall(id, status)][1..] == [];
  }

  lemma AckIsNoCompletion(key: string)
    ensures Completions(AckTrace(key)) == []
  {
    if key != "" {
      assert [AckCall(key)][1..] == [];
    }
  }
}

=== FILE: domain.dfy ===
/**
 The data the GitLab bridge works on: the controller's task, the decoded task
 options, the provider's records, the replies a scripted controller and
 provider give, and the effects (outgoing calls) a run performs.

 Every network call of the bridge is replaced by a scripted reply, so a
 workflow becomes a pure function from a task and its replies to a `Run`:
 how the run ended, the task status it left behind, and the calls it made.
 */
module Domain {

  datatype Option<+T> = None | Some(value: T)

  /** A Go call that returns a value and an error; a nil error is `Ok`. */
  datatype Result<+T> = Ok(value: T) | Err(error: Error)

  /** The Go run-time panics the core can raise. */
  datatype PanicReason =
    | NilDereference        // a field read through a nil pointer
    | NilMapAssignment      // an assignment into a nil map
    | FailedTypeAssertion   // `result.(float64)` on a non-number

  /** A computation that either returns normally or panics. */
  datatype Flow<+T> = Normal(value: T) | Panic(reason: PanicReason)

  /** The errors the core produces or passes through. */
  datatype Error =
    | RpcError(message: string)                  // the broker's error object
    | NonZeroResult(code: int)                   // the broker answered, but not 0
    | DecodeError(message: string)               // the options did not unmarshal
    | InvalidPath(path: string)                  // a project path without "/"
    | InvalidProjectData(id: int, path: string)  // neither id nor path given
    | InvalidIdType                              // parseID of a non-int, non-string
    | ProviderError(message: string)             // any failed provider call
    | RefNotFound(ref: string, projectId: string)
    | PipelineNotStarted                         // the trigger run returned no pipeline
    | NoClientForType(taskType: string)
    | EnvNotSet(name: string)
    | EnvEmpty(name: string)
    | InvalidBaseUrl(url: string)

  /** The `result` member of a JSON-RPC reply, as `encoding/json` decodes it
      into an `interface{}`: a JSON number becomes a float64 (a `real` here),
      anything else (null, a string, an object, ...) is not a number. */
  datatype RpcValue = Number(x: real) | NotNumber

  /** What the service broker hands back: an error object, or a result. */
  datatype RpcReply = ErrorObject(message: string) | Answered(value: RpcValue)

  /** What a provider call hands back: data, or an error (with nil data). */
  datatype Reply<+T> = Answer(value: T) | Failure(message: string)

  // ---------------------------------------------------------------- records

  datatype Trigger = Trigger(description: string, token: string)
  datatype Pipeline = Pipeline(id: int, status: string)
  datatype Variable = Variable(key: string, value: string)

  /** The "project" member of the pipeline options; Go `int` and `string`. */
  datatype ProjectData = ProjectData(id: int, path: string)

  /** The pipeline options. `project` and `variables` are a Go pointer and a
      Go map, either of which can be nil after decoding. */
  datatype RequestData = RequestData(
    project: Option<ProjectData>,
    ref: string,
    token: string,
    variables: Option<map<string, string>>)

  /** The project options: a namespace and a project name. */
  datatype ProjectTask = ProjectTask(namespace: string, name: string)

  /** Unmarshalling the raw options: an error, the JSON literal null, or a value. */
  datatype Decoded<+T> = DecodeFailed(message: string) | Null | Decoded(value: T)

  /** The raw options of a task, seen through each of the two option types. */
  datatype Options = Options(asPipeline: Decoded<RequestData>, asProject: Decoded<ProjectTask>)

  /** The controller's unit of work. */
  datatype Task = Task(
    id: string,
    status: string,
    key: string,
    service: string,
    taskType: string,
    async: bool,
    options: Options)

  // ---------------------------------------------------------------- effects

  /** One outgoing call. `BrokerCall` is a JSON-RPC call to the controller;
      the rest are calls to the provider's REST API, plus the poll delay. */
  datatype Effect =
    | BrokerCall(rpcMethod: string, params: map<string, string>)
    | ListBranches(project: string)
    | ListTriggers(project: string)
    | AddTrigger(project: string, description: string)
    | RunTrigger(project: string, ref: string, token: string, variables: Option<map<string, string>>)
    | GetPipeline(project: string, pipeline: int)
    | Sleep(seconds: nat)
    | ListPipelines(project: string)
    | GetPipelineVars(project: string, pipeline: int)
    | CancelPipeline(project: string, pipeline: int)
    | GetProject(key: string)
    | CreateProject(name: string, path: string, description: string)
    | EditProject(id: int, name: string, path: string, description: string)

  /** A value together with the calls made to produce it. */
  datatype Traced<+T> = Traced(result: T, trace: seq<Effect>)

  /** How `StartTask`/`CancelTask` ended: returned an error (or nil), panicked,
      or is still polling when the scripted status replies run out. */
  datatype Exit = Returned(err: Option<Error>) | Panicked(reason: PanicReason) | Watching

  /** A whole execution: its exit, the task's final status, and its calls. */
  datatype Run = Run(exit: Exit, status: string, trace: seq<Effect>)

  /** `run` preceded by the calls in `before`. */
  function Prepend(before: seq<Effect>, run: Run): Run
  {
    run.(trace := before + run.trace)
  }

  lemma PrependPrepend(a: seq<Effect>, b: seq<Effect>, run: Run)
    ensures Prepend(a, Prepend(b, run)) == Prepend(a + b, run)
  {
    assert a + (b + run.trace) == (a + b) + run.trace;
  }

  const Pending := "pending"
}

=== FILE: executors.dfy ===
/**
 The executor factory of src/client.go: `NewGitlabClient` reads the
 provider's token and base URL from the environment and picks the executor
 for a task type; the two executors share the `StartTask`/`CancelTask`
 interface.
 */
module Executors {
  import opened Domain
  import opened Utils
  import opened Client
  import Pipelines
  import Projects

  const TokenEnv := "GITLAB_TOKEN"
  const BaseUrlEnv := "GITLAB_BASE_URL"

  /** The two implementations of the executor interface. */
  datatype Executor = PipelineExecutor | ProjectExecutor

  /** `NewGitlabClient`: the token must be set and non-empty, then the base
      URL, which must also be accepted by the provider's client (`isValidUrl`
      stands for its URL parsing); only then does the task type pick an
      executor, and an unknown type is an error. */
  function NewGitlabClient(env: map<string, string>, taskType: string, isValidUrl: string -> bool): (r: Result<Executor>)
    ensures ValidateEnv(env, TokenEnv).Err? ==> r == Err(ValidateEnv(env, TokenEnv).error)
    ensures ValidateEnv(env, TokenEnv).Ok? && ValidateEnv(env, BaseUrlEnv).Err? ==>
      r == Err(ValidateEnv(env, BaseUrlEnv).error)
    ensures ValidateEnv(env, TokenEnv).Ok? && ValidateEnv(env, BaseUrlEnv).Ok? && !isValidUrl(env[BaseUrlEnv]) ==>
      r == Err(InvalidBaseUrl(env[BaseUrlEnv]))
    ensures r == Ok(PipelineExecutor) <==>
      && TokenEnv in env && env[TokenEnv] != ""
      && BaseUrlEnv in env && env[BaseUrlEnv] != "" && isValidUrl(env[BaseUrlEnv])
      && taskType == "pipeline"
    ensures r == Ok(ProjectExecutor) <==>
      && TokenEnv in env && env[TokenEnv] != ""
      && BaseUrlEnv in env && env[BaseUrlEnv] != "" && isValidUrl(env[BaseUrlEnv])
      && taskType == "project"
    ensures r.Err? && r.error.NoClientForType? ==> r.error.taskType == taskType && taskType !in {"pipeline", "project"}
    ensures && TokenEnv in env && env[TokenEnv] != ""
            && BaseUrlEnv in env && env[BaseUrlEnv] != "" && isValidUrl(env[BaseUrlEnv])
            && taskType !in {"pipeline", "project"} ==>
      r == Err(NoClientForType(taskType))
  {
    match ValidateEnv(env, TokenEnv)
    case Err(e) => Err(e)
    case Ok(_) =>
      match ValidateEnv(env, BaseUrlEnv)
      case Err(e) => Err(e)
      case Ok(baseUrl) =>
        if !isValidUrl(baseUrl) then Err(InvalidBaseUrl(baseUrl))
        else if taskType == "pipeline" then Ok(PipelineExecutor)
        else if taskType == "project" then Ok(ProjectExecutor)
        else Err(NoClientForType(taskType))
  }

  /** The replies every kind of run may receive. */
  datatype Scripts = Scripts(
    pipeline: Pipelines.StartScript,
    project: Projects.ProjectScript,
    cancel: Pipelines.CancelScript)

  /** The ack reply the executor's `StartTask` reads. */
  function AckReply(ex: Executor, s: Scripts): RpcReply
  {
    match ex
    case PipelineExecutor => s.pipeline.ack
    case ProjectExecutor => s.project.ack
  }

  function StartTask(ex: Executor, ct: Task, s: Scripts): Run
  {
    match ex
    case PipelineExecutor => Pipelines.StartTask(ct, s.pipeline)
    case ProjectExecutor => Projects.StartTask(ct, s.project)
  }

  function CancelTask(ex: Executor, ct: Task, s: Scripts): Run
  {
    match ex
    case PipelineExecutor => Pipelines.CancelTask(ct, s.cancel)
    case ProjectExecutor => Projects.CancelTask(ct)
  }

  /** Whichever executor runs it, a task that is not pending is left alone,
      and one whose ack is refused gets nothing but the ack. */
  lemma StartTaskNeedsPendingAndAck(ex: Executor, ct: Task, s: Scripts)
    ensures ct.status != Pending ==> StartTask(ex, ct, s) == Run(Returned(None), ct.status, [])
    ensures ct.status == Pending && !Granted(ct.key, AckReply(ex, s)) && !AckCrashes(ct.key, AckReply(ex, s)) ==>
      StartTask(ex, ct, s) == Run(Returned(None), ct.status, AckTrace(ct.key))
  {
  }

  /** Whichever executor runs it, a run's last report to the controller is
      the status it leaves, and a run without a report leaves the status
      alone. */
  lemma StartTaskLastReportIsFinalStatus(ex: Executor, ct: Task, s: Scripts)
    ensures var run := StartTask(ex, ct, s);
      var reports := Completions(run.trace);
      || (reports == [] && run.status == ct.status)
      || (|reports| > 0 && reports[|reports| - 1] == run.status)
  {
    match ex
    case PipelineExecutor => Pipelines.StartTaskReportsFinalStatus(ct, s.pipeline);
    case ProjectExecutor => Projects.StartTaskReportsFinalStatus(ct, s.project);
  }

  /** Cancelling never reports to the controller and never changes the
      status, whichever executor runs it. */
  lemma CancelTaskNeverReports(ex: Executor, ct: Task, s: Scripts)
    ensures Completions(CancelTask(ex, ct, s).trace) == []
    ensures CancelTask(ex, ct, s).status == ct.status
  {
  }
}

=== FILE: pipelines.dfy ===
/**
 The pipeline workflow of src/pipelines.go. `StartTask` claims a pending
 task, resolves the project, checks the ref against the branch list, finds
 or creates the dedicated trigger, fires it, and for a synchronous task polls
 the pipeline until it is finished and reports the outcome. `CancelTask`
 cancels the running pipelines whose `concord_task_id` variable equals the
 one in the task's options (not the task's own id).
 Each provider call is answered from a script.
 */
module Pipelines {
  import opened Domain
  import opened Text
  import opened Utils
  import opened Client

  const TriggerName := "concordTrigger"
  const DefaultRef := "master"
  const TaskIdVariable := "concord_task_id"
  const PollSeconds := 10
  const Running := "running"

  /** The pipeline options plus the project identity resolved from them. */
  datatype PipelineTask = PipelineTask(request: RequestData, projectId: string, projectName: string)

  /** The replies a `StartTask` run receives, one per kind of call; the
      status replies are read in order, one per poll. */
  datatype StartScript = StartScript(
    ack: RpcReply,
    branches: Reply<seq<string>>,
    triggers: Reply<seq<Trigger>>,
    added: Reply<Trigger>,
    run: Reply<Option<int>>,
    statuses: seq<Reply<string>>,
    complete: RpcReply)

  /** One entry of the pipeline listing, with the replies the later calls
      about it receive: reading its variables, and cancelling it (`None`
      when the cancellation succeeds, else the error message). */
  datatype Listed = Listed(pipeline: Pipeline, variables: Reply<seq<Variable>>, cancel: Option<string>)

  /** The replies a `CancelTask` run receives. */
  datatype CancelScript = CancelScript(pipelines: Reply<seq<Listed>>)

  // ---------------------------------------------------------------- project identity

  /** `name` is what follows the last "/" of `path`, and there is a "/". */
  predicate IsLastSegment(path: string, name: string)
  {
    && '/' !in name
    && |name| < |path|
    && path[|path| - |name|..] == name
    && path[|path| - |name| - 1] == '/'
  }

  /** `SetProjectId`: a positive id wins and becomes the decimal project id,
      leaving the name alone; otherwise a non-empty path is the project id
      and its last segment the name, and a path without "/" is an error;
      with neither, an error. A nil project record panics. */
  function SetProjectId(pt: PipelineTask): (r: Flow<Result<PipelineTask>>)
    ensures r.Panic? <==> pt.request.project.None?
    ensures r.Panic? ==> r.reason == NilDereference
    ensures r.Normal? && r.value.Ok? ==> r.value.value.request == pt.request
    ensures pt.request.project.Some? && pt.request.project.value.id > 0 ==>
      && r.Normal? && r.value.Ok?
      && IsDecimal(r.value.value.projectId)
      && Atoi(r.value.value.projectId) == pt.request.project.value.id
      && r.value.value.projectName == pt.projectName
    ensures pt.request.project.Some? && pt.request.project.value.id <= 0 && pt.request.project.value.path != "" ==>
      var path := pt.request.project.value.path;
      && r.Normal?
      && (r.value.Ok? <==> '/' in path)
      && (r.value.Ok? ==> r.value.value.projectId == path && IsLastSegment(path, r.value.value.projectName))
      && (r.value.Err? ==> r.value.error == InvalidPath(path))
    ensures pt.request.project.Some? && pt.request.project.value.id <= 0 && pt.request.project.value.path == "" ==>
      r == Normal(Err(InvalidProjectData(pt.request.project.value.id, "")))
  {
    match pt.request.project
    case None => Panic(NilDereference)
    case Some(pd) =>
      if pd.id > 0 then
        match ParseId(IntId(pd.id))
        case Err(e) => Normal(Err(e))
        case Ok(id) => Normal(Ok(pt.(projectId := id)))
      else if pd.path != "" then
        var parts := Split(pd.path, '/');
        LastPiece(pd.path, '/');
        SplitHasSeveralPieces(pd.path, '/');
        if |parts| <= 1 then Normal(Err(InvalidPath(pd.path)))
        else Normal(Ok(pt.(projectId := pd.path, projectName := parts[|parts| - 1])))
      else Normal(Err(InvalidProjectData(pd.id, pd.path)))
  }

  // ---------------------------------------------------------------- ref validation

  /** Scans the branch names for one equal to `ref`. */
  function HasBranch(names: seq<string>, ref: string): (r: bool)
    ensures r <==> exists i :: 0 <= i < |names| && names[i] == ref
  {
    if |names| == 0 then false
    else names[0] == ref || HasBranch(names[1..], ref)
  }

  datatype RefCheck = RefCheck(valid: bool, err: Option<Error>)

  /** `ValidateRef`: one branch listing; the ref is valid iff it equals a
      branch name exactly (no prefix or pattern match); a listing error is
      passed on. */
  function ValidateRef(pt: PipelineTask, branches: Reply<seq<string>>): (r: Traced<RefCheck>)
    ensures r.trace == [ListBranches(pt.projectId)]
    ensures r.result.valid <==> branches.Answer? && pt.request.ref in branches.value
    ensures r.result.err.Some? <==> branches.Failure?
    ensures branches.Failure? ==> r.result.err == Some(ProviderError(branches.message))
  {
    var names := if branches.Answer? then branches.value else [];
    var err := if branches.Failure? then Some(ProviderError(branches.message)) else None;
    Traced(RefCheck(HasBranch(names, pt.request.ref), err), [ListBranches(pt.projectId)])
  }

  // ---------------------------------------------------------------- the trigger

  /** The position of the first trigger described as "concordTrigger". */
  function FindTrigger(triggers: seq<Trigger>): (r: Option<nat>)
    ensures r.Some? ==>
      && r.value < |triggers|
      && triggers[r.value].description == TriggerName
      && forall j :: 0 <= j < r.value ==> triggers[j].description != TriggerName
    ensures r.None? ==> forall j :: 0 <= j < |triggers| ==> triggers[j].description != TriggerName
  {
    if |triggers| == 0 then None
    else if triggers[0].description == TriggerName then Some(0)
    else
      match FindTrigger(triggers[1..])
      case None => None
      case Some(k) => Some(k + 1)
  }

  /** The listing holds a trigger of ours. A listing error counts as none:
      `GetTrigger` never looks at that error. */
  predicate HasOurTrigger(listed: Reply<seq<Trigger>>)
  {
    listed.Answer? && exists i :: 0 <= i < |listed.value| && listed.value[i].description == TriggerName
  }

  /** `GetTrigger`: the first listed trigger of ours, with no other call;
      only when there is none, exactly one trigger is created. */
  function GetTrigger(projectId: string, listed: Reply<seq<Trigger>>, added: Reply<Trigger>): (r: Traced<Result<Trigger>>)
    ensures HasOurTrigger(listed) ==>
      && r.trace == [ListTriggers(projectId)]
      && (exists k :: 0 <= k < |listed.value| && r.result == Ok(listed.value[k])
            && listed.value[k].description == TriggerName
            && forall j :: 0 <= j < k ==> listed.value[j].description != TriggerName)
    ensures !HasOurTrigger(listed) ==>
      && r.trace == [ListTriggers(projectId), AddTrigger(projectId, TriggerName)]
      && (added.Answer? ==> r.result == Ok(added.value))
      && (added.Failure? ==> r.result == Err(ProviderError(added.message)))
  {
    var list := [ListTriggers(projectId)];
    var found := if listed.Answer? then FindTrigger(listed.value) else None;
    match found
    case Some(k) => Traced(Ok(listed.value[k]), list)
    case None =>
      var trace := list + [AddTrigger(projectId, TriggerName)];
      match added
      case Failure(m) => Traced(Err(ProviderError(m)), trace)
      case Answer(t) => Traced(Ok(t), trace)
  }

  /** `TriggerPipeline`: get the trigger, then run it on the task's ref with
      the trigger's own token and the task's variables; a run error or a
      missing pipeline is an error, otherwise the new pipeline's id. */
  function TriggerPipeline(pt: PipelineTask, sc: StartScript): (r: Traced<Result<int>>)
    ensures var got := GetTrigger(pt.projectId, sc.triggers, sc.added);
      && (got.result.Err? ==> r == Traced(Err(got.result.error), got.trace))
      && (got.result.Ok? ==>
            r.trace == got.trace + [RunTrigger(pt.projectId, pt.request.ref, got.result.value.token, pt.request.variables)])
      && (r.result.Ok? <==> got.result.Ok? && sc.run.Answer? && sc.run.value.Some?)
      && (r.result.Ok? ==> r.result.value == sc.run.value.value)
  {
    var got := GetTrigger(pt.projectId, sc.triggers, sc.added);
    match got.result
    case Err(e) => Traced(Err(e), got.trace)
    case Ok(trigger) =>
      var trace := got.trace + [RunTrigger(pt.projectId, pt.request.ref, trigger.token, pt.request.variables)];
      match sc.run
      case Failure(m) => Traced(Err(ProviderError(m)), trace)
      case Answer(None) => Traced(Err(PipelineNotStarted), trace)
      case Answer(Some(id)) => Traced(Ok(id), trace)
  }

  // ---------------------------------------------------------------- watching

  /** A status reply that keeps the watch going. */
  predicate StillRunning(reply: Reply<string>)
  {
    reply.Answer? && !IsFinished(reply.value)
  }

  /** The index of the status reply that ends the watch: the first error or
      terminal status; all of them if there is none. */
  function SettleIndex(statuses: seq<Reply<string>>): (k: nat)
    ensures k <= |statuses|
    ensures forall i :: 0 <= i < k ==> StillRunning(statuses[i])
    ensures k < |statuses| ==> !StillRunning(statuses[k])
  {
    if |statuses| == 0 || !StillRunning(statuses[0]) then 0
    else 1 + SettleIndex(statuses[1..])
  }

  datatype WatchResult = Finished(status: string) | PollFailed(status: string, err: Error) | StillPolling

  /** `WatchUntilComplete` over a finite script of status replies: polls,
      sleeping between polls, until a read fails or a status is finished.
      Running out of replies leaves it still polling. */
  function Watch(projectId: string, pipelineId: int, statuses: seq<Reply<string>>): (r: Traced<WatchResult>)
    ensures var k := SettleIndex(statuses);
      && (k == |statuses| ==> r.result == StillPolling)
      && (k < |statuses| && statuses[k].Failure? ==>
            r.result == PollFailed(TaskStatusError, ProviderError(statuses[k].message)))
      && (k < |statuses| && statuses[k].Answer? ==>
            IsFinished(statuses[k].value) && r.result == Finished(ConcordStatus(statuses[k].value)))
      && |r.trace| == 2 * k + (if k < |statuses| then 1 else 0)
    ensures forall i :: 0 <= i < |r.trace| ==>
      r.trace[i] == if i % 2 == 0 then GetPipeline(projectId, pipelineId) else Sleep(PollSeconds)
  {
    if |statuses| == 0 then Traced(StillPolling, [])
    else
      var poll := GetPipeline(projectId, pipelineId);
      match statuses[0]
      case Failure(m) => Traced(PollFailed(ConcordStatus("failed"), ProviderError(m)), [poll])
      case Answer(s) =>
        if IsFinished(s) then Traced(Finished(ConcordStatus(s)), [poll])
        else
          var rest := Watch(projectId, pipelineId, statuses[1..]);
          Traced(rest.result, [poll, Sleep(PollSeconds)] + rest.trace)
  }

  // ---------------------------------------------------------------- StartTask

  /** The variables after the task id has been put in: the old ones, with
      "concord_task_id" set to `id`. */
  predicate Injected(before: map<string, string>, after: map<string, string>, id: string)
  {
    && after.Keys == before.Keys + {TaskIdVariable}
    && after[TaskIdVariable] == id
    && forall k :: k in before && k != TaskIdVariable ==> after[k] == before[k]
  }

  /** The steps between a granted ack and ref validation: decode the
      options, resolve the project, put the task id into the variables and
      default an empty ref to "master". A decode or resolution error is
      returned; "null" options, a nil project or a nil variable map panic. */
  function Prepare(ct: Task): (r: Flow<Result<PipelineTask>>)
    ensures ct.options.asPipeline.DecodeFailed? ==> r == Normal(Err(DecodeError(ct.options.asPipeline.message)))
    ensures ct.options.asPipeline.Null? ==> r == Panic(NilDereference)
    ensures ct.options.asPipeline.Decoded? ==>
      var rd := ct.options.asPipeline.value;
      var resolved := SetProjectId(PipelineTask(rd, "", ""));
      && (resolved.Panic? ==> r == resolved)
      && (resolved.Normal? && resolved.value.Err? ==> r == resolved)
      && (resolved.Normal? && resolved.value.Ok? && rd.variables.None? ==> r == Panic(NilMapAssignment))
      && (resolved.Normal? && resolved.value.Ok? && rd.variables.Some? ==> r.Normal? && r.value.Ok?)
      && (r.Normal? && r.value.Ok? ==>
            var pt := r.value.value;
            && resolved.Normal? && resolved.value.Ok? && rd.variables.Some?
            && pt.projectId == resolved.value.value.projectId
            && pt.projectName == resolved.value.value.projectName
            && pt.request.project == rd.project
            && pt.request.token == rd.token
            && pt.request.ref != ""
            && (rd.ref == "" ==> pt.request.ref == DefaultRef)
            && (rd.ref != "" ==> pt.request.ref == rd.ref)
            && pt.request.variables.Some?
            && Injected(rd.variables.value, pt.request.variables.value, ct.id))
  {
    match ct.options.asPipeline
    case DecodeFailed(m) => Normal(Err(DecodeError(m)))
    case Null => Panic(NilDereference)
    case Decoded(rd) =>
      match SetProjectId(PipelineTask(rd, "", ""))
      case Panic(why) => Panic(why)
      case Normal(Err(e)) => Normal(Err(e))
      case Normal(Ok(pt)) =>
        match pt.request.variables
        case None => Panic(NilMapAssignment)
        case Some(vars) =>
          var ref := if pt.request.ref == "" then DefaultRef else pt.request.ref;
          Normal(Ok(pt.(request := pt.request.(ref := ref, variables := Some(vars[TaskIdVariable := ct.id])))))
  }

  /** The error path after validation starts: the status becomes "error",
      the task is completed once (its outcome ignored) and `e` is returned;
      the completion itself can still panic. */
  function FailTask(ct: Task, e: Error, reply: RpcReply): (r: Run)
    ensures r.status == TaskStatusError
    ensures Completions(r.trace) == [TaskStatusError]
    ensures r.trace == [CompleteCall(ct.id, TaskStatusError)]
    ensures r.exit == if Crashes(reply) then Panicked(FailedTypeAssertion) else Returned(Some(e))
  {
    var done := CompleteTask(ct.id, TaskStatusError, reply);
    CompletionsOfCall(ct.id, TaskStatusError);
    Run(if done.result.Panic? then Panicked(done.result.reason) else Returned(Some(e)), TaskStatusError, done.trace)
  }

  /** A synchronous task after the trigger: watch, then report the mapped
      status. A failed status read returns its error without completing. */
  function Finish(ct: Task, projectId: string, pipelineId: int, sc: StartScript): Run
  {
    var watched := Watch(projectId, pipelineId, sc.statuses);
    match watched.result
    case StillPolling => Run(Watching, ct.status, watched.trace)
    case PollFailed(_, e) => Run(Returned(Some(e)), ct.status, watched.trace)
    case Finished(status) =>
      var done := CompleteTask(ct.id, status, sc.complete);
      var trace := watched.trace + done.trace;
      match done.result
      case Panic(why) => Run(Panicked(why), status, trace)
      case Normal(c) => Run(Returned(if c.ok then None else c.err), status, trace)
  }

  /** Everything after `Prepare`: validate the ref, trigger, and for a
      synchronous task watch and complete. */
  function Launch(ct: Task, pt: PipelineTask, sc: StartScript): Run
  {
    var checked := ValidateRef(pt, sc.branches);
    if checked.result.err.Some? then
      Prepend(checked.trace, FailTask(ct, checked.result.err.value, sc.complete))
    else if !checked.result.valid then
      Prepend(checked.trace, FailTask(ct, RefNotFound(pt.request.ref, pt.projectId), sc.complete))
    else
      var fired := TriggerPipeline(pt, sc);
      var trace := checked.trace + fired.trace;
      match fired.result
      case Err(e) => Prepend(trace, FailTask(ct, e, sc.complete))
      case Ok(pipelineId) =>
        if ct.async then Run(Returned(None), ct.status, trace)
        else Prepend(trace, Finish(ct, pt.projectId, pipelineId, sc))
  }

  /** `PipelineClient.StartTask`. */
  function StartTask(ct: Task, sc: StartScript): (run: Run)
    ensures ct.status != Pending ==> run == Run(Returned(None), ct.status, [])
    ensures ct.status == Pending && !Granted(ct.key, sc.ack) && !AckCrashes(ct.key, sc.ack) ==>
      run == Run(Returned(None), ct.status, AckTrace(ct.key))
    ensures ct.status == Pending && AckCrashes(ct.key, sc.ack) ==>
      run == Run(Panicked(FailedTypeAssertion), ct.status, [AckCall(ct.key)])
  {
    if ct.status != Pending then Run(Returned(None), ct.status, [])
    else
      var ack := RequestAck(ct.key, sc.ack);
      match ack.result
      case Panic(why) => Run(Panicked(why), ct.status, ack.trace)
      case Normal(granted) =>
        if !granted then Run(Returned(None), ct.status, ack.trace)
        else
          match Prepare(ct)
          case Panic(why) => Run(Panicked(why), ct.status, ack.trace)
          case Normal(Err(e)) => Run(Returned(Some(e)), ct.status, ack.trace)
          case Normal(Ok(pt)) => Prepend(ack.trace, Launch(ct, pt, sc))
  }

  // ---------------------------------------------------------------- StartTask properties

  /** The calls that fire the trigger report nothing to the controller. */
  lemma TriggerReportsNothing(pt: PipelineTask, sc: StartScript)
    ensures Completions(TriggerPipeline(pt, sc).trace) == []
  {
    var fired := TriggerPipeline(pt, sc);
    assert forall i :: 0 <= i < |fired.trace| ==> !fired.trace[i].BrokerCall?;
    NoCompletions(fired.trace);
  }

  /** A synchronous run after the trigger reports the mapped status of the
      first finished status reply, and nothing when the watch fails or is
      still going; the status it leaves is the one it reports. */
  lemma {:induction false} FinishReportsOutcome(ct: Task, projectId: string, pipelineId: int, sc: StartScript)
    ensures var run := Finish(ct, projectId, pipelineId, sc);
      var k := SettleIndex(sc.statuses);
      && (k < |sc.statuses| && sc.statuses[k].Answer? ==>
            && run.status == ConcordStatus(sc.statuses[k].value)
            && Completions(run.trace) == [run.status]
            && run.exit == (if Crashes(sc.complete) then Panicked(FailedTypeAssertion)
                            else if Accepted(sc.complete) then Returned(None)
                            else Returned(CompleteTask(ct.id, run.status, sc.complete).result.value.err)))
      && (k < |sc.statuses| && sc.statuses[k].Failure? ==>
            run == Run(Returned(Some(ProviderError(sc.statuses[k].message))), ct.status, run.trace)
            && Completions(run.trace) == [])
      && (k == |sc.statuses| ==> run.exit == Watching && run.status == ct.status && Completions(run.trace) == [])
  {
    var watched := Watch(projectId, pipelineId, sc.statuses);
    assert forall i :: 0 <= i < |watched.trace| ==> !watched.trace[i].BrokerCall?;
    NoCompletions(watched.trace);
    match watched.result
    case StillPolling =>
    case PollFailed(_, e) =>
    case Finished(status) =>
      var done := CompleteTask(ct.id, status, sc.complete);
      CompletionsAppend(watched.trace, done.trace);
      CompletionsOfCall(ct.id, status);
  }

  /** Everything after a granted ack and a successful `Prepare` reports at
      most once, and when it reports, it reports the status it leaves. */
  lemma LaunchReportsFinalStatus(ct: Task, pt: PipelineTask, sc: StartScript)
    ensures var run := Launch(ct, pt, sc);
      || (Completions(run.trace) == [] && run.status == ct.status)
      || Completions(run.trace) == [run.status]
  {
    var checked := ValidateRef(pt, sc.branches);
    NoCompletions(checked.trace);
    if checked.result.err.Some? {
      PrependCompletions(checked.trace, FailTask(ct, checked.result.err.value, sc.complete));
    } else if !checked.result.valid {
      PrependCompletions(checked.trace, FailTask(ct, RefNotFound(pt.request.ref, pt.projectId), sc.complete));
    } else {
      var fired := TriggerPipeline(pt, sc);
      var trace := checked.trace + fired.trace;
      TriggerReportsNothing(pt, sc);
      CompletionsAppend(checked.trace, fired.trace);
      match fired.result
      case Err(e) =>
        PrependCompletions(trace, FailTask(ct, e, sc.complete));
      case Ok(pipelineId) =>
        if !ct.async {
          FinishReportsOutcome(ct, pt.projectId, pipelineId, sc);
          PrependCompletions(trace, Finish(ct, pt.projectId, pipelineId, sc));
        }
    }
  }

  /** Over every task and every script: a run reports at most once to the
      controller, and the status it reports is the status it leaves; a run
      that does not report leaves the status alone. */
  lemma StartTaskReportsFinalStatus(ct: Task, sc: StartScript)
    ensures var run := StartTask(ct, sc);
      || (Completions(run.trace) == [] && run.status == ct.status)
      || Completions(run.trace) == [run.status]
  {
    if ct.status == Pending {
      AckIsNoCompletion(ct.key);
      var ack := RequestAck(ct.key, sc.ack);
      if ack.result == Normal(true) {
        match Prepare(ct)
        case Panic(_) =>
        case Normal(Err(_)) =>
        case Normal(Ok(pt)) =>
          LaunchReportsFinalStatus(ct, pt, sc);
          PrependCompletions(ack.trace, Launch(ct, pt, sc));
      }
    }
  }

  /** A decode or resolution error after the ack is returned without any
      report: the status stays as it was and no completion is sent. */
  lemma StartTaskEarlyErrorIsNotReported(ct: Task, sc: StartScript)
    requires ct.status == Pending && Granted(ct.key, sc.ack)
    requires Prepare(ct).Normal? && Prepare(ct).value.Err?
    ensures StartTask(ct, sc) == Run(Returned(Some(Prepare(ct).value.error)), ct.status, [AckCall(ct.key)])
    ensures Completions(StartTask(ct, sc).trace) == []
  {
    AckIsNoCompletion(ct.key);
  }

  /** A ref that is not a branch of the project: one branch listing, then
      one "error" report, and the not-found error. An empty ref was
      checked as "master". */
  lemma StartTaskUnknownRef(ct: Task, sc: StartScript, pt: PipelineTask)
    requires ct.status == Pending && Granted(ct.key, sc.ack)
    requires Prepare(ct) == Normal(Ok(pt))
    requires sc.branches.Answer? && pt.request.ref !in sc.branches.value
    ensures var run := StartTask(ct, sc);
      && run.status == TaskStatusError
      && run.trace == [AckCall(ct.key), ListBranches(pt.projectId), CompleteCall(ct.id, TaskStatusError)]
      && Completions(run.trace) == [TaskStatusError]
      && run.exit == (if Crashes(sc.complete) then Panicked(FailedTypeAssertion)
                      else Returned(Some(RefNotFound(pt.request.ref, pt.projectId))))
    ensures ct.options.asPipeline.value.ref == "" ==> pt.request.ref == DefaultRef
  {
    var run := StartTask(ct, sc);
    PrependCompletions([AckCall(ct.key), ListBranches(pt.projectId)],
      FailTask(ct, RefNotFound(pt.request.ref, pt.projectId), sc.complete));
    NoCompletions([AckCall(ct.key), ListBranches(pt.projectId)]);
  }

  /** "null" options, a nil project or a nil variable map panic right
      after the ack, with no further call and the status untouched. */
  lemma StartTaskPreparePanics(ct: Task, sc: StartScript)
    requires ct.status == Pending && Granted(ct.key, sc.ack)
    requires Prepare(ct).Panic?
    ensures StartTask(ct, sc) == Run(Panicked(Prepare(ct).reason), ct.status, [AckCall(ct.key)])
    ensures Completions(StartTask(ct, sc).trace) == []
  {
    AckIsNoCompletion(ct.key);
  }

  /** A failed branch listing: that one listing, then one "error" report,
      and the provider's error. */
  lemma StartTaskBranchListingError(ct: Task, sc: StartScript, pt: PipelineTask)
    requires ct.status == Pending && Granted(ct.key, sc.ack)
    requires Prepare(ct) == Normal(Ok(pt))
    requires sc.branches.Failure?
    ensures var run := StartTask(ct, sc);
      && run.status == TaskStatusError
      && run.trace == [AckCall(ct.key), ListBranches(pt.projectId), CompleteCall(ct.id, TaskStatusError)]
      && Completions(run.trace) == [TaskStatusError]
      && run.exit == (if Crashes(sc.complete) then Panicked(FailedTypeAssertion)
                      else Returned(Some(ProviderError(sc.branches.message))))
  {
    PrependCompletions([AckCall(ct.key), ListBranches(pt.projectId)],
      FailTask(ct, ProviderError(sc.branches.message), sc.complete));
    NoCompletions([AckCall(ct.key), ListBranches(pt.projectId)]);
  }

  /** A known ref whose trigger cannot be created, whose run fails, or
      whose run gives no pipeline: the calls up to the trigger run, then
      one "error" report, and the trigger's error. */
  lemma StartTaskTriggerError(ct: Task, sc: StartScript, pt: PipelineTask)
    requires ct.status == Pending && Granted(ct.key, sc.ack)
    requires Prepare(ct) == Normal(Ok(pt))
    requires sc.branches.Answer? && pt.request.ref in sc.branches.value
    requires TriggerPipeline(pt, sc).result.Err?
    ensures var run := StartTask(ct, sc);
      && run.status == TaskStatusError
      && run.trace == TriggerTrace(ct, sc, pt) + [CompleteCall(ct.id, TaskStatusError)]
      && Completions(run.trace) == [TaskStatusError]
      && run.exit == (if Crashes(sc.complete) then Panicked(FailedTypeAssertion)
                      else Returned(Some(TriggerPipeline(pt, sc).result.error)))
  {
    var failed := FailTask(ct, TriggerPipeline(pt, sc).result.error, sc.complete);
    StartTaskLaunches(ct, sc, pt);
    TriggerTraceReportsNothing(ct, sc, pt);
    PrependCompletions(TriggerTrace(ct, sc, pt), failed);
  }

  /** The steps up to a started pipeline: a granted ack, a prepared task, a
      known ref, and a trigger run that yields `pipelineId`. */
  predicate Triggered(ct: Task, sc: StartScript, pt: PipelineTask, pipelineId: int)
  {
    && ct.status == Pending && Granted(ct.key, sc.ack)
    && Prepare(ct) == Normal(Ok(pt))
    && sc.branches.Answer? && pt.request.ref in sc.branches.value
    && TriggerPipeline(pt, sc).result == Ok(pipelineId)
  }

  /** The calls up to and including the trigger run. */
  function TriggerTrace(ct: Task, sc: StartScript, pt: PipelineTask): seq<Effect>
  {
    [AckCall(ct.key)] + ([ListBranches(pt.projectId)] + TriggerPipeline(pt, sc).trace)
  }

  /** The trigger run is on the task's ref, with the trigger's own token
      (the token of the options is never used) and the task's variables,
      which carry the task id. */
  lemma TriggerRunCarriesTaskId(ct: Task, sc: StartScript, pt: PipelineTask, pipelineId: int)
    requires Triggered(ct, sc, pt, pipelineId)
    ensures var got := GetTrigger(pt.projectId, sc.triggers, sc.added);
      && got.result.Ok?
      && TriggerTrace(ct, sc, pt)[|TriggerTrace(ct, sc, pt)| - 1]
         == RunTrigger(pt.projectId, pt.request.ref, got.result.value.token, pt.request.variables)
    ensures pt.request.variables.Some?
    ensures TaskIdVariable in pt.request.variables.value && pt.request.variables.value[TaskIdVariable] == ct.id
    ensures pt.request.ref != ""
  {
  }

  /** An asynchronous task: the pipeline is started and nothing is reported;
      the run returns nil and the status stays as it was. */
  lemma StartTaskAsyncIsNotReported(ct: Task, sc: StartScript, pt: PipelineTask, pipelineId: int)
    requires Triggered(ct, sc, pt, pipelineId) && ct.async
    ensures StartTask(ct, sc) == Run(Returned(None), ct.status, TriggerTrace(ct, sc, pt))
    ensures Completions(StartTask(ct, sc).trace) == []
  {
    TriggerTraceReportsNothing(ct, sc, pt);
  }

  /** A synchronous task: the watch ends at the first finished status or
      failed read. A finished status is reported once, mapped; a failed
      read is returned without a report. */
  lemma StartTaskSyncReportsOutcome(ct: Task, sc: StartScript, pt: PipelineTask, pipelineId: int)
    requires Triggered(ct, sc, pt, pipelineId) && !ct.async
    ensures var run := StartTask(ct, sc);
      var k := SettleIndex(sc.statuses);
      && (k < |sc.statuses| && sc.statuses[k].Answer? ==>
            && run.status == ConcordStatus(sc.statuses[k].value)
            && Completions(run.trace) == [run.status]
            && (run.exit == Returned(None) <==> Accepted(sc.complete)))
      && (k < |sc.statuses| && sc.statuses[k].Failure? ==>
            && run.exit == Returned(Some(ProviderError(sc.statuses[k].message)))
            && run.status == ct.status
            && Completions(run.trace) == [])
      && (k == |sc.statuses| ==> run.exit == Watching && Completions(run.trace) == [])
  {
    var before := TriggerTrace(ct, sc, pt);
    var finish := Finish(ct, pt.projectId, pipelineId, sc);
    StartTaskReachesFinish(ct, sc, pt, pipelineId);
    FinishReportsOutcome(ct, pt.projectId, pipelineId, sc);
    TriggerTraceReportsNothing(ct, sc, pt);
    PrependCompletions(before, finish);
  }

  lemma TriggerTraceReportsNothing(ct: Task, sc: StartScript, pt: PipelineTask)
    ensures Completions(TriggerTrace(ct, sc, pt)) == []
  {
    var listing := [ListBranches(pt.projectId)];
    TriggerReportsNothing(pt, sc);
    NoCompletions(listing);
    CompletionsAppend(listing, TriggerPipeline(pt, sc).trace);
    AckIsNoCompletion(ct.key);
    CompletionsAppend([AckCall(ct.key)], listing + TriggerPipeline(pt, sc).trace);
  }

  /** A granted ack and a prepared task go on to `Launch`. */
  lemma StartTaskLaunches(ct: Task, sc: StartScript, pt: PipelineTask)
    requires ct.status == Pending && Granted(ct.key, sc.ack)
    requires Prepare(ct) == Normal(Ok(pt))
    ensures StartTask(ct, sc) == Prepend([AckCall(ct.key)], Launch(ct, pt, sc))
  {
  }

  /** A known ref and a started pipeline of a synchronous task go on to
      watch it. */
  lemma LaunchReachesFinish(ct: Task, sc: StartScript, pt: PipelineTask, pipelineId: int)
    requires sc.branches.Answer? && pt.request.ref in sc.branches.value
    requires TriggerPipeline(pt, sc).result == Ok(pipelineId) && !ct.async
    ensures Launch(ct, pt, sc)
      == Prepend([ListBranches(pt.projectId)] + TriggerPipeline(pt, sc).trace, Finish(ct, pt.projectId, pipelineId, sc))
  {
  }

  /** A synchronous run that got a pipeline goes on to watch it. */
  lemma StartTaskReachesFinish(ct: Task, sc: StartScript, pt: PipelineTask, pipelineId: int)
    requires Triggered(ct, sc, pt, pipelineId) && !ct.async
    ensures StartTask(ct, sc) == Prepend(TriggerTrace(ct, sc, pt), Finish(ct, pt.projectId, pipelineId, sc))
  {
    var finish := Finish(ct, pt.projectId, pipelineId, sc);
    var middle := [ListBranches(pt.projectId)] + TriggerPipeline(pt, sc).trace;
    StartTaskLaunches(ct, sc, pt);
    LaunchReachesFinish(ct, sc, pt, pipelineId);
    PrependPrepend([AckCall(ct.key)], middle, finish);
  }

  /** Preparing carries the token of the options along and does nothing
      else with it. */
  lemma PrepareKeepsToken(ct: Task, token: string)
    requires ct.options.asPipeline.Decoded?
    ensures var rd := ct.options.asPipeline.value;
      var other := ct.(options := ct.options.(asPipeline := Decoded(rd.(token := token))));
      Prepare(other) == match Prepare(ct)
        case Normal(Ok(pt)) => Normal(Ok(pt.(request := pt.request.(token := token))))
        case r => r
  {
  }

  /** After preparation, neither the token nor the options matter. */
  lemma LaunchIgnoresToken(ct: Task, options: Options, pt: PipelineTask, sc: StartScript, token: string)
    ensures Launch(ct.(options := options), pt.(request := pt.request.(token := token)), sc) == Launch(ct, pt, sc)
  {
    var pt' := pt.(request := pt.request.(token := token));
    assert ValidateRef(pt', sc.branches) == ValidateRef(pt, sc.branches);
    assert TriggerPipeline(pt', sc) == TriggerPipeline(pt, sc);
  }

  /** The trigger token in the options makes no difference to a run. */
  lemma StartTaskIgnoresToken(ct: Task, sc: StartScript, token: string)
    requires ct.options.asPipeline.Decoded?
    ensures var rd := ct.options.asPipeline.value;
      StartTask(ct.(options := ct.options.(asPipeline := Decoded(rd.(token := token)))), sc) == StartTask(ct, sc)
  {
    var rd := ct.options.asPipeline.value;
    var other := ct.(options := ct.options.(asPipeline := Decoded(rd.(token := token))));
    PrepareKeepsToken(ct, token);
    if Prepare(ct).Normal? && Prepare(ct).value.Ok? {
      LaunchIgnoresToken(ct, other.options, Prepare(ct).value.value, sc, token);
    }
  }

  // ---------------------------------------------------------------- CancelTask

  /** `Variables["concord_task_id"]` of the options: reading a nil map or a
      missing key gives "". */
  function WantedTaskId(vars: Option<map<string, string>>): (id: string)
    ensures vars.Some? && TaskIdVariable in vars.value ==> id == vars.value[TaskIdVariable]
    ensures vars.None? || TaskIdVariable !in vars.value ==> id == ""
  {
    match vars
    case None => ""
    case Some(m) => if TaskIdVariable in m then m[TaskIdVariable] else ""
  }

  /** Some variable is "concord_task_id" with the wanted value. */
  predicate Matches(vs: seq<Variable>, wanted: string)
  {
    exists i :: 0 <= i < |vs| && vs[i].key == TaskIdVariable && vs[i].value == wanted
  }

  /** A pipeline the cancel path should cancel: running, with readable
      variables, one of which carries the wanted task id. */
  predicate ShouldCancel(l: Listed, wanted: string)
  {
    l.pipeline.status == Running && l.variables.Answer? && Matches(l.variables.value, wanted)
  }

  /** The ids of the pipelines that should be cancelled. */
  function Selected(ls: seq<Listed>, wanted: string): set<int>
  {
    set l | l in ls && ShouldCancel(l, wanted) :: l.pipeline.id
  }

  /** The ids of the pipelines a trace cancels. */
  function CancelledIds(trace: seq<Effect>): set<int>
  {
    set i | 0 <= i < |trace| && trace[i].CancelPipeline? :: trace[i].pipeline
  }

  /** No call of the scan fails: every running pipeline's variables can be
      read, and every cancellation it asks for succeeds. */
  predicate ScanSucceeds(ls: seq<Listed>, wanted: string)
  {
    forall l :: l in ls && l.pipeline.status == Running ==>
      l.variables.Answer? && (Matches(l.variables.value, wanted) ==> l.cancel.None?)
  }

  /** The number of variables that carry the wanted task id. */
  function MatchCount(vs: seq<Variable>, wanted: string): nat
  {
    if |vs| == 0 then 0
    else (if vs[0].key == TaskIdVariable && vs[0].value == wanted then 1 else 0) + MatchCount(vs[1..], wanted)
  }

  /** The inner loop over one pipeline's variables: cancel the pipeline for
      every matching variable; the first failed cancellation aborts. */
  function CancelMatching(projectId: string, pipelineId: int, vs: seq<Variable>, wanted: string, outcome: Option<string>)
    : (r: Traced<Option<Error>>)
    ensures forall i :: 0 <= i < |r.trace| ==> r.trace[i] == CancelPipeline(projectId, pipelineId)
    ensures |r.trace| > 0 <==> Matches(vs, wanted)
    ensures outcome.None? ==> |r.trace| == MatchCount(vs, wanted)
    ensures r.result.Some? <==> Matches(vs, wanted) && outcome.Some?
    ensures r.result.Some? ==> r.result == Some(ProviderError(outcome.value)) && |r.trace| == 1
  {
    if |vs| == 0 then Traced(None, [])
    else if vs[0].key == TaskIdVariable && vs[0].value == wanted then
      var call := [CancelPipeline(projectId, pipelineId)];
      match outcome
      case Some(m) => Traced(Some(ProviderError(m)), call)
      case None =>
        var rest := CancelMatching(projectId, pipelineId, vs[1..], wanted, outcome);
        Traced(rest.result, call + rest.trace)
    else
      var rest := CancelMatching(projectId, pipelineId, vs[1..], wanted, outcome);
      assert Matches(vs, wanted) <==> Matches(vs[1..], wanted) by {
        if Matches(vs, wanted) {
          var i :| 0 <= i < |vs| && vs[i].key == TaskIdVariable && vs[i].value == wanted;
          assert vs[1..][i - 1] == vs[i];
        }
        if Matches(vs[1..], wanted) {
          var i :| 0 <= i < |vs[1..]| && vs[1..][i].key == TaskIdVariable && vs[1..][i].value == wanted;
          assert vs[i + 1] == vs[1..][i];
        }
      }
      rest
  }

  /** A call the scan makes: reading variables or cancelling, in `projectId`. */
  predicate IsScanCall(e: Effect, projectId: string)
  {
    (e.GetPipelineVars? || e.CancelPipeline?) && e.project == projectId
  }

  /** The ids of the listed pipelines that are running. */
  function RunningIds(ls: seq<Listed>): set<int>
  {
    set l | l in ls && l.pipeline.status == Running :: l.pipeline.id
  }

  /** The outer loop over the pipeline list: only running pipelines have
      their variables read; the first failed call aborts the scan. Every
      call it makes reads variables or cancels, in `projectId`, and is on a
      running pipeline of the listing. */
  function Scan(projectId: string, ls: seq<Listed>, wanted: string): (r: Traced<Option<Error>>)
    ensures forall i :: 0 <= i < |r.trace| ==>
      IsScanCall(r.trace[i], projectId) && r.trace[i].pipeline in RunningIds(ls)
  {
    if |ls| == 0 then Traced(None, [])
    else
      var l := ls[0];
      if l.pipeline.status != Running then Scan(projectId, ls[1..], wanted)
      else
        var fetch := [GetPipelineVars(projectId, l.pipeline.id)];
        match l.variables
        case Failure(m) => Traced(Some(ProviderError(m)), fetch)
        case Answer(vs) =>
          var cancelled := CancelMatching(projectId, l.pipeline.id, vs, wanted, l.cancel);
          if cancelled.result.Some? then Traced(cancelled.result, fetch + cancelled.trace)
          else
            var rest := Scan(projectId, ls[1..], wanted);
            Traced(rest.result, fetch + cancelled.trace + rest.trace)
  }

  /** A scan call that failed, for the listed pipeline `l`, with the error `e`. */
  predicate FailedAt(l: Listed, wanted: string, e: Error)
  {
    && l.pipeline.status == Running
    && ((l.variables.Failure? && e == ProviderError(l.variables.message))
        || (ShouldCancel(l, wanted) && l.cancel.Some? && e == ProviderError(l.cancel.value)))
  }

  /** The last call of a non-empty trace reads the variables of, or
      cancels, pipeline `id`. */
  predicate LastCallOn(trace: seq<Effect>, projectId: string, id: int)
  {
    |trace| > 0 &&
    (trace[|trace| - 1] == GetPipelineVars(projectId, id) || trace[|trace| - 1] == CancelPipeline(projectId, id))
  }

  /** The scan result `r` failed at `ls[i]`, the first pipeline whose calls
      fail: all before it succeed, and its failed call is the last call made. */
  predicate FirstFailureAt(ls: seq<Listed>, i: int, wanted: string, r: Traced<Option<Error>>, projectId: string)
  {
    && 0 <= i < |ls|
    && ScanSucceeds(ls[..i], wanted)
    && r.result.Some?
    && FailedAt(ls[i], wanted, r.result.value)
    && LastCallOn(r.trace, projectId, ls[i].pipeline.id)
  }

  lemma CancelledIdsAppend(a: seq<Effect>, b: seq<Effect>)
    ensures CancelledIds(a + b) == CancelledIds(a) + CancelledIds(b)
  {
    var ab := a + b;
    forall x | x in CancelledIds(ab)
      ensures x in CancelledIds(a) + CancelledIds(b)
    {
      var i :| 0 <= i < |ab| && ab[i].CancelPipeline? && ab[i].pipeline == x;
      if i < |a| {
        assert a[i] == ab[i];
      } else {
        assert b[i - |a|] == ab[i];
      }
    }
    forall x | x in CancelledIds(a) + CancelledIds(b)
      ensures x in CancelledIds(ab)
    {
      if x in CancelledIds(a) {
        var i :| 0 <= i < |a| && a[i].CancelPipeline? && a[i].pipeline == x;
        assert ab[i] == a[i];
      } else {
        var i :| 0 <= i < |b| && b[i].CancelPipeline? && b[i].pipeline == x;
        assert ab[i + |a|] == b[i];
      }
    }
  }

  lemma SelectedCons(ls: seq<Listed>, wanted: string)
    requires |ls| > 0
    ensures Selected(ls, wanted)
      == (if ShouldCancel(ls[0], wanted) then {ls[0].pipeline.id} else {}) + Selected(ls[1..], wanted)
  {
    assert ls == [ls[0]] + ls[1..];
    assert forall l :: l in ls <==> l == ls[0] || l in ls[1..];
  }

  lemma ScanSucceedsCons(ls: seq<Listed>, wanted: string)
    requires |ls| > 0
    ensures ScanSucceeds(ls, wanted) <==>
      && ScanSucceeds([ls[0]], wanted)
      && ScanSucceeds(ls[1..], wanted)
  {
    assert ls == [ls[0]] + ls[1..];
    assert forall l :: l in ls <==> l == ls[0] || l in ls[1..];
  }

  lemma CancelMatchingIds(projectId: string, pipelineId: int, vs: seq<Variable>, wanted: string, outcome: Option<string>)
    ensures CancelledIds(CancelMatching(projectId, pipelineId, vs, wanted, outcome).trace)
      == if Matches(vs, wanted) then {pipelineId} else {}
  {
    var r := CancelMatching(projectId, pipelineId, vs, wanted, outcome);
    if |r.trace| > 0 {
      assert r.trace[0] == CancelPipeline(projectId, pipelineId);
    }
  }

  /** The scan cancels only pipelines that should be cancelled, and when no
      call fails it cancels every one of them. */
  lemma {:induction false} ScanCancelsSelected(projectId: string, ls: seq<Listed>, wanted: string)
    ensures CancelledIds(Scan(projectId, ls, wanted).trace) <= Selected(ls, wanted)
    ensures Scan(projectId, ls, wanted).result.None? ==>
      CancelledIds(Scan(projectId, ls, wanted).trace) == Selected(ls, wanted)
  {
    if |ls| == 0 {
      assert Selected(ls, wanted) == {};
    } else {
      var l := ls[0];
      var rest := Scan(projectId, ls[1..], wanted);
      ScanCancelsSelected(projectId, ls[1..], wanted);
      SelectedCons(ls, wanted);
      if l.pipeline.status == Running {
        var fetch := [GetPipelineVars(projectId, l.pipeline.id)];
        assert CancelledIds(fetch) == {};
        match l.variables
        case Failure(m) =>
        case Answer(vs) =>
          var cancelled := CancelMatching(projectId, l.pipeline.id, vs, wanted, l.cancel);
          CancelMatchingIds(projectId, l.pipeline.id, vs, wanted, l.cancel);
          CancelledIdsAppend(fetch, cancelled.trace);
          if cancelled.result.None? {
            CancelledIdsAppend(fetch + cancelled.trace, rest.trace);
          }
      }
    }
  }

  /** The scan returns nil exactly when none of its calls fails. */
  lemma {:induction false} ScanNilIffSucceeds(projectId: string, ls: seq<Listed>, wanted: string)
    ensures Scan(projectId, ls, wanted).result.None? <==> ScanSucceeds(ls, wanted)
  {
    if |ls| > 0 {
      ScanNilIffSucceeds(projectId, ls[1..], wanted);
      ScanSucceedsCons(ls, wanted);
    }
  }

  /** The scan returns nil exactly when none of its calls fails; otherwise
      its error is that of the first listed pipeline whose call fails, and
      that call is the last one made. */
  lemma {:induction false} ScanStopsAtFirstFailure(projectId: string, ls: seq<Listed>, wanted: string)
    ensures Scan(projectId, ls, wanted).result.None? <==> ScanSucceeds(ls, wanted)
    ensures Scan(projectId, ls, wanted).result.Some? ==>
      exists i :: FirstFailureAt(ls, i, wanted, Scan(projectId, ls, wanted), projectId)
  {
    ScanNilIffSucceeds(projectId, ls, wanted);
    if |ls| > 0 {
      var l := ls[0];
      var r := Scan(projectId, ls, wanted);
      var rest := Scan(projectId, ls[1..], wanted);
      ScanStopsAtFirstFailure(projectId, ls[1..], wanted);
      ScanSucceedsCons(ls, wanted);
      assert ls[..0] == [];
      if l.pipeline.status == Running {
        match l.variables
        case Failure(m) =>
          assert FirstFailureAt(ls, 0, wanted, r, projectId);
        case Answer(vs) =>
          var cancelled := CancelMatching(projectId, l.pipeline.id, vs, wanted, l.cancel);
          if cancelled.result.Some? {
            assert FailedAt(ls[0], wanted, r.result.value);
            assert r.trace[|r.trace| - 1] == CancelPipeline(projectId, l.pipeline.id);
            assert FirstFailureAt(ls, 0, wanted, r, projectId);
          } else if rest.result.Some? {
            LaterFailure(projectId, ls, wanted);
            var i :| FirstFailureAt(ls, i, wanted, rest, projectId);
            assert r.trace == [GetPipelineVars(projectId, l.pipeline.id)] + cancelled.trace + rest.trace;
            assert r.trace[|r.trace| - 1] == rest.trace[|rest.trace| - 1];
            assert FirstFailureAt(ls, i, wanted, r, projectId);
          }
      } else if rest.result.Some? {
        LaterFailure(projectId, ls, wanted);
      }
    }
  }

  /** When the head of the listing gives no failure, the first failure of
      the tail is the first failure of the whole listing. */
  lemma LaterFailure(projectId: string, ls: seq<Listed>, wanted: string)
    requires |ls| > 0 && ScanSucceeds([ls[0]], wanted)
    requires Scan(projectId, ls[1..], wanted).result.Some?
    requires exists j :: FirstFailureAt(ls[1..], j, wanted, Scan(projectId, ls[1..], wanted), projectId)
    ensures exists i :: FirstFailureAt(ls, i, wanted, Scan(projectId, ls[1..], wanted), projectId)
  {
    var rest := Scan(projectId, ls[1..], wanted);
    var j :| FirstFailureAt(ls[1..], j, wanted, rest, projectId);
    var prefix := ls[..j + 1];
    assert prefix[0] == ls[0] && prefix[1..] == ls[1..][..j];
    ScanSucceedsCons(prefix, wanted);
    assert ls[j + 1] == ls[1..][j];
    assert FirstFailureAt(ls, j + 1, wanted, rest, projectId);
  }

  /** `PipelineClient.CancelTask`: no status check and no ack; decode,
      resolve, list the pipelines, and scan them. It never reports to the
      controller and leaves the status alone. */
  function CancelTask(ct: Task, sc: CancelScript): (run: Run)
    ensures run.status == ct.status
    ensures Completions(run.trace) == []
    ensures ct.options.asPipeline.DecodeFailed? ==>
      run == Run(Returned(Some(DecodeError(ct.options.asPipeline.message))), ct.status, [])
    ensures ct.options.asPipeline.Null? ==> run == Run(Panicked(NilDereference), ct.status, [])
    ensures ct.options.asPipeline.Decoded? ==>
      var resolved := SetProjectId(PipelineTask(ct.options.asPipeline.value, "", ""));
      && (resolved.Panic? ==> run == Run(Panicked(resolved.reason), ct.status, []))
      && (resolved.Normal? && resolved.value.Err? ==> run == Run(Returned(Some(resolved.value.error)), ct.status, []))
      && (resolved.Normal? && resolved.value.Ok? ==>
            && |run.trace| >= 1 && run.trace[0] == ListPipelines(resolved.value.value.projectId)
            && (sc.pipelines.Failure? ==>
                  run == Run(Returned(Some(ProviderError(sc.pipelines.message))), ct.status,
                             [ListPipelines(resolved.value.value.projectId)])))
  {
    match ct.options.asPipeline
    case DecodeFailed(m) => Run(Returned(Some(DecodeError(m))), ct.status, [])
    case Null => Run(Panicked(NilDereference), ct.status, [])
    case Decoded(rd) =>
      match SetProjectId(PipelineTask(rd, "", ""))
      case Panic(why) => Run(Panicked(why), ct.status, [])
      case Normal(Err(e)) => Run(Returned(Some(e)), ct.status, [])
      case Normal(Ok(pt)) =>
        var listed := [ListPipelines(pt.projectId)];
        match sc.pipelines
        case Failure(m) => Run(Returned(Some(ProviderError(m))), ct.status, listed)
        case Answer(ls) =>
          var scan := Scan(pt.projectId, ls, WantedTaskId(rd.variables));
          assert forall i :: 0 <= i < |listed + scan.trace| ==> !(listed + scan.trace)[i].BrokerCall? by {
            forall i | 0 <= i < |listed + scan.trace|
              ensures !(listed + scan.trace)[i].BrokerCall?
            {
              if i == 0 {
                assert (listed + scan.trace)[i] == ListPipelines(pt.projectId);
              } else {
                assert (listed + scan.trace)[i] == scan.trace[i - 1];
              }
            }
          }
          NoCompletions(listed + scan.trace);
          Run(Returned(scan.result), ct.status, listed + scan.trace)
  }

  /** Cancelling looks for the task id held in the options' variables, not
      for the task's own id: changing the latter changes nothing. */
  lemma CancelTaskIgnoresTaskId(ct: Task, sc: CancelScript, id: string)
    ensures CancelTask(ct.(id := id), sc) == CancelTask(ct, sc)
  {
  }

  /** After a successful listing, cancelling is the scan of that listing
      for the options' task id: its calls follow the listing call, and its
      result is what cancelling returns. */
  lemma CancelTaskScansListing(ct: Task, sc: CancelScript, pt: PipelineTask)
    requires ct.options.asPipeline.Decoded?
    requires SetProjectId(PipelineTask(ct.options.asPipeline.value, "", "")) == Normal(Ok(pt))
    requires sc.pipelines.Answer?
    ensures var run := CancelTask(ct, sc);
      var scan := Scan(pt.projectId, sc.pipelines.value, WantedTaskId(ct.options.asPipeline.value.variables));
      && run.trace == [ListPipelines(pt.projectId)] + scan.trace
      && run.exit == Returned(scan.result)
  {
  }

  /** Cancelling cancels only running pipelines whose variables carry the
      task id of the options; it returns nil exactly when no call fails, and
      then it has cancelled every such pipeline. */
  lemma CancelTaskCancelsMatches(ct: Task, sc: CancelScript, pt: PipelineTask)
    requires ct.options.asPipeline.Decoded?
    requires SetProjectId(PipelineTask(ct.options.asPipeline.value, "", "")) == Normal(Ok(pt))
    requires sc.pipelines.Answer?
    ensures var run := CancelTask(ct, sc);
      var wanted := WantedTaskId(ct.options.asPipeline.value.variables);
      && run.trace[0] == ListPipelines(pt.projectId)
      && CancelledIds(run.trace) <= Selected(sc.pipelines.value, wanted)
      && (run.exit == Returned(None) <==> ScanSucceeds(sc.pipelines.value, wanted))
      && (run.exit == Returned(None) ==> CancelledIds(run.trace) == Selected(sc.pipelines.value, wanted))
  {
    var wanted := WantedTaskId(ct.options.asPipeline.value.variables);
    var ls := sc.pipelines.value;
    ScanCancelsSelected(pt.projectId, ls, wanted);
    ScanStopsAtFirstFailure(pt.projectId, ls, wanted);
    var listed := [ListPipelines(pt.projectId)];
    assert CancelledIds(listed) == {};
    CancelledIdsAppend(listed, Scan(pt.projectId, ls, wanted).trace);
  }
}

=== FILE: projects.dfy ===
/**
 The project workflow of src/projects.go. `StartTask` claims a pending task,
 reads the namespace and name from the options, and looks up the project
 `namespace/name`; it edits the one it finds, or creates a project `name`
 (with no namespace, so in the token owner's own) when nothing is found; it
 then reports "completed" or "error" to the controller. Cancelling a
 project task is not supported and does nothing.
 */
module Projects {
  import opened Domain
  import opened Client

  const Description := "Project automatically generated created by Concord"

  /** The replies a `StartTask` run receives: the ack, the lookup (a project
      id or nil, and an error, reported independently as the provider's
      client does), the creation and edit errors, and the replies to the
      first report and to the report that follows a failed one. */
  datatype ProjectScript = ProjectScript(
    ack: RpcReply,
    found: Option<int>,
    lookupError: Option<string>,
    created: Option<string>,
    edited: Option<string>,
    complete: RpcReply,
    retry: RpcReply)

  /** The project options after decoding; JSON null leaves both fields empty. */
  function Requested(options: Decoded<ProjectTask>): (pt: ProjectTask)
    requires !options.DecodeFailed?
    ensures options.Null? ==> pt == ProjectTask("", "")
    ensures options.Decoded? ==> pt == options.value
  {
    if options.Decoded? then options.value else ProjectTask("", "")
  }

  /** The lookup key "namespace/name". */
  function SearchKey(pt: ProjectTask): string
  {
    pt.namespace + "/" + pt.name
  }

  /** Look the project up, then create it (nothing found) or edit it. The
      error that counts is the creation's, or on the edit path the lookup's:
      the edit's own error is dropped. */
  function Ensure(pt: ProjectTask, sc: ProjectScript): (r: Traced<Option<Error>>)
    ensures |r.trace| == 2 && r.trace[0] == GetProject(SearchKey(pt))
    ensures sc.found.None? ==>
      && r.trace[1] == CreateProject(pt.name, pt.name, Description)
      && (r.result.Some? <==> sc.created.Some?)
      && (r.result.Some? ==> r.result.value == ProviderError(sc.created.value))
    ensures sc.found.Some? ==>
      && r.trace[1] == EditProject(sc.found.value, pt.name, pt.name, Description)
      && (r.result.Some? <==> sc.lookupError.Some?)
      && (r.result.Some? ==> r.result.value == ProviderError(sc.lookupError.value))
  {
    var lookup := [GetProject(SearchKey(pt))];
    match sc.found
    case None =>
      var err := if sc.created.Some? then Some(ProviderError(sc.created.value)) else None;
      Traced(err, lookup + [CreateProject(pt.name, pt.name, Description)])
    case Some(id) =>
      var err := if sc.lookupError.Some? then Some(ProviderError(sc.lookupError.value)) else None;
      Traced(err, lookup + [EditProject(id, pt.name, pt.name, Description)])
  }

  /** Report "error" once (the outcome is ignored) and return `e`; the
      report itself can still panic. */
  function Fail(ct: Task, e: Option<Error>, reply: RpcReply): (r: Run)
    ensures r.status == TaskStatusError
    ensures r.trace == [CompleteCall(ct.id, TaskStatusError)]
    ensures r.exit == if Crashes(reply) then Panicked(FailedTypeAssertion) else Returned(e)
  {
    var done := CompleteTask(ct.id, TaskStatusError, reply);
    Run(if done.result.Panic? then Panicked(done.result.reason) else Returned(e), TaskStatusError, done.trace)
  }

  /** Report "completed"; when that report is refused, report "error" and
      return the refusal's error. */
  function Succeed(ct: Task, sc: ProjectScript): Run
  {
    var done := CompleteTask(ct.id, TaskStatusCompleted, sc.complete);
    match done.result
    case Panic(why) => Run(Panicked(why), TaskStatusCompleted, done.trace)
    case Normal(c) =>
      if c.ok then Run(Returned(None), TaskStatusCompleted, done.trace)
      else Prepend(done.trace, Fail(ct, c.err, sc.retry))
  }

  /** `ProjectClient.StartTask`. */
  function StartTask(ct: Task, sc: ProjectScript): (run: Run)
    ensures ct.status != Pending ==> run == Run(Returned(None), ct.status, [])
    ensures ct.status == Pending && !Granted(ct.key, sc.ack) && !AckCrashes(ct.key, sc.ack) ==>
      run == Run(Returned(None), ct.status, AckTrace(ct.key))
    ensures ct.status == Pending && AckCrashes(ct.key, sc.ack) ==>
      run == Run(Panicked(FailedTypeAssertion), ct.status, [AckCall(ct.key)])
    ensures ct.status == Pending && Granted(ct.key, sc.ack) && ct.options.asProject.DecodeFailed? ==>
      && run.status == TaskStatusError
      && run.trace == [AckCall(ct.key), CompleteCall(ct.id, TaskStatusError)]
      && run.exit == (if Crashes(sc.complete) then Panicked(FailedTypeAssertion)
                      else Returned(Some(DecodeError(ct.options.asProject.message))))
  {
    if ct.status != Pending then Run(Returned(None), ct.status, [])
    else
      var ack := RequestAck(ct.key, sc.ack);
      match ack.result
      case Panic(why) => Run(Panicked(why), ct.status, ack.trace)
      case Normal(granted) =>
        if !granted then Run(Returned(None), ct.status, ack.trace)
        else
          match ct.options.asProject
          case DecodeFailed(m) => Prepend(ack.trace, Fail(ct, Some(DecodeError(m)), sc.complete))
          case _ =>
            var pt := Requested(ct.options.asProject);
            var ensured := Ensure(pt, sc);
            match ensured.result
            case Some(e) => Prepend(ack.trace + ensured.trace, Fail(ct, Some(e), sc.complete))
            case None => Prepend(ack.trace + ensured.trace, Succeed(ct, sc))
  }

  /** `ProjectClient.CancelTask`: not supported; returns nil without a call. */
  function CancelTask(ct: Task): (run: Run)
    ensures run.exit == Returned(None) && run.status == ct.status && run.trace == []
  {
    Run(Returned(None), ct.status, [])
  }

  // ---------------------------------------------------------------- properties

  lemma FailReportsError(ct: Task, e: Option<Error>, reply: RpcReply)
    ensures Completions(Fail(ct, e, reply).trace) == [TaskStatusError]
  {
    CompletionsOfCall(ct.id, TaskStatusError);
  }

  /** The success path reports "completed", and only when that report is
      refused without a panic, "error" after it. Its last report is the
      status it leaves. */
  lemma SucceedReports(ct: Task, sc: ProjectScript)
    ensures var run := Succeed(ct, sc);
      && (Accepted(sc.complete) ==>
            run == Run(Returned(None), TaskStatusCompleted, [CompleteCall(ct.id, TaskStatusCompleted)]))
      && (Crashes(sc.complete) ==> run.exit == Panicked(FailedTypeAssertion) && run.status == TaskStatusCompleted)
      && (Accepted(sc.complete) || Crashes(sc.complete) ==> Completions(run.trace) == [TaskStatusCompleted])
      && (!Accepted(sc.complete) && !Crashes(sc.complete) ==>
            && Completions(run.trace) == [TaskStatusCompleted, TaskStatusError]
            && run.status == TaskStatusError
            && (run.exit.Returned? ==>
                  run.exit.err.Some? && run.exit.err == CompleteTask(ct.id, TaskStatusCompleted, sc.complete).result.value.err))
  {
    var done := CompleteTask(ct.id, TaskStatusCompleted, sc.complete);
    CompletionsOfCall(ct.id, TaskStatusCompleted);
    if done.result.Normal? && !done.result.value.ok {
      var failed := Fail(ct, done.result.value.err, sc.retry);
      FailReportsError(ct, done.result.value.err, sc.retry);
      CompletionsAppend(done.trace, failed.trace);
    }
  }

  lemma EnsureReportsNothing(pt: ProjectTask, sc: ProjectScript)
    ensures Completions(Ensure(pt, sc).trace) == []
  {
    var t := Ensure(pt, sc).trace;
    NoCompletions(t);
  }

  /** Over every task and every script: a claimed task is always reported,
      once or (after a refused "completed") twice, and the last report is
      the status the run leaves; an unclaimed task is never reported and
      keeps its status. */
  lemma StartTaskReportsFinalStatus(ct: Task, sc: ProjectScript)
    ensures var run := StartTask(ct, sc);
      var reports := Completions(run.trace);
      && (ct.status == Pending && Granted(ct.key, sc.ack) ==>
            1 <= |reports| <= 2 && reports[|reports| - 1] == run.status)
      && (!(ct.status == Pending && Granted(ct.key, sc.ack)) ==> reports == [] && run.status == ct.status)
  {
    if ct.status == Pending {
      AckIsNoCompletion(ct.key);
      if Granted(ct.key, sc.ack) {
        var ack := [AckCall(ct.key)];
        match ct.options.asProject
        case DecodeFailed(m) =>
          FailReportsError(ct, Some(DecodeError(m)), sc.complete);
          PrependCompletions(ack, Fail(ct, Some(DecodeError(m)), sc.complete));
        case _ =>
          var pt := Requested(ct.options.asProject);
          var ensured := Ensure(pt, sc);
          EnsureReportsNothing(pt, sc);
          CompletionsAppend(ack, ensured.trace);
          match ensured.result
          case Some(e) =>
            FailReportsError(ct, Some(e), sc.complete);
            PrependCompletions(ack + ensured.trace, Fail(ct, Some(e), sc.complete));
          case None =>
            SucceedReports(ct, sc);
            PrependCompletions(ack + ensured.trace, Succeed(ct, sc));
      }
    }
  }

  /** A claimed task with readable options looks up "namespace/name" (both
      empty for null options), then creates the project under its name
      when none is found, or edits the one found. */
  lemma StartTaskLooksUpThenCreatesOrEdits(ct: Task, sc: ProjectScript)
    requires ct.status == Pending && Granted(ct.key, sc.ack)
    requires !ct.options.asProject.DecodeFailed?
    ensures var run := StartTask(ct, sc);
      var pt := Requested(ct.options.asProject);
      && |run.trace| >= 4
      && run.trace[..3] == [AckCall(ct.key)] + Ensure(pt, sc).trace
      && run.trace[1] == GetProject(pt.namespace + "/" + pt.name)
      && (sc.found.None? ==> run.trace[2] == CreateProject(pt.name, pt.name, Description))
      && (sc.found.Some? ==> run.trace[2] == EditProject(sc.found.value, pt.name, pt.name, Description))
  {
  }

  /** Options that are the JSON literal null decode to an empty namespace
      and name, with no error: the lookup is for "/", and when nothing is
      found a project with an empty name and path is created. */
  lemma StartTaskNullOptions(ct: Task, sc: ProjectScript)
    requires ct.status == Pending && Granted(ct.key, sc.ack)
    requires ct.options.asProject.Null?
    ensures |StartTask(ct, sc).trace| >= 4
    ensures StartTask(ct, sc).trace[1] == GetProject("/")
    ensures sc.found.None? ==> StartTask(ct, sc).trace[2] == CreateProject("", "", Description)
    ensures sc.found.Some? ==> StartTask(ct, sc).trace[2] == EditProject(sc.found.value, "", "", Description)
  {
    StartTaskLooksUpThenCreatesOrEdits(ct, sc);
  }

  /** The edit's own outcome makes no difference to a run. The script
      carries an edit reply only so that this can be stated: no step of the
      model reads it, just as the code drops the edit's results. */
  lemma StartTaskIgnoresEditError(ct: Task, sc: ProjectScript, edited: Option<string>)
    ensures StartTask(ct, sc.(edited := edited)) == StartTask(ct, sc)
  {
  }

  /** A failed creation, or a lookup error on the edit path, is reported
      once as "error" and returned. */
  lemma StartTaskProviderError(ct: Task, sc: ProjectScript)
    requires ct.status == Pending && Granted(ct.key, sc.ack)
    requires !ct.options.asProject.DecodeFailed?
    requires (sc.found.None? && sc.created.Some?) || (sc.found.Some? && sc.lookupError.Some?)
    ensures var run := StartTask(ct, sc);
      var message := if sc.found.None? then sc.created.value else sc.lookupError.value;
      && run.status == TaskStatusError
      && Completions(run.trace) == [TaskStatusError]
      && run.exit == (if Crashes(sc.complete) then Panicked(FailedTypeAssertion)
                      else Returned(Some(ProviderError(message))))
  {
    var ack := [AckCall(ct.key)];
    var pt := Requested(ct.options.asProject);
    var ensured := Ensure(pt, sc);
    var failed := Fail(ct, ensured.result, sc.complete);
    assert StartTask(ct, sc) == Prepend(ack + ensured.trace, failed);
    AckIsNoCompletion(ct.key);
    EnsureReportsNothing(pt, sc);
    CompletionsAppend(ack, ensured.trace);
    FailReportsError(ct, ensured.result, sc.complete);
    PrependCompletions(ack + ensured.trace, failed);
  }

  /** A "completed" report that is refused without a panic is followed by
      an "error" report, and the refusal's error is returned unless that
      second report panics. */
  lemma StartTaskReportRefused(ct: Task, sc: ProjectScript)
    requires ct.status == Pending && Granted(ct.key, sc.ack)
    requires !ct.options.asProject.DecodeFailed?
    requires Ensure(Requested(ct.options.asProject), sc).result.None?
    requires !Accepted(sc.complete) && !Crashes(sc.complete)
    ensures var run := StartTask(ct, sc);
      var refusal := CompleteTask(ct.id, TaskStatusCompleted, sc.complete).result.value.err;
      && refusal.Some?
      && run.trace == [AckCall(ct.key)] + Ensure(Requested(ct.options.asProject), sc).trace
                      + [CompleteCall(ct.id, TaskStatusCompleted), CompleteCall(ct.id, TaskStatusError)]
      && Completions(run.trace) == [TaskStatusCompleted, TaskStatusError]
      && run.status == TaskStatusError
      && run.exit == (if Crashes(sc.retry) then Panicked(FailedTypeAssertion) else Returned(refusal))
  {
    var ack := [AckCall(ct.key)];
    var pt := Requested(ct.options.asProject);
    var ensured := Ensure(pt, sc);
    assert StartTask(ct, sc) == Prepend(ack + ensured.trace, Succeed(ct, sc));
    AckIsNoCompletion(ct.key);
    EnsureReportsNothing(pt, sc);
    CompletionsAppend(ack, ensured.trace);
    SucceedReports(ct, sc);
    PrependCompletions(ack + ensured.trace, Succeed(ct, sc));
  }

  /** The happy path: no error, an accepted "completed" report, nil. */
  lemma StartTaskSucceeds(ct: Task, sc: ProjectScript)
    requires ct.status == Pending && Granted(ct.key, sc.ack)
    requires !ct.options.asProject.DecodeFailed?
    requires (sc.found.None? && sc.created.None?) || (sc.found.Some? && sc.lookupError.None?)
    requires Accepted(sc.complete)
    ensures var run := StartTask(ct, sc);
      && run.exit == Returned(None)
      && run.status == TaskStatusCompleted
      && Completions(run.trace) == [TaskStatusCompleted]
  {
    var ack := [AckCall(ct.key)];
    var pt := Requested(ct.options.asProject);
    var ensured := Ensure(pt, sc);
    assert StartTask(ct, sc) == Prepend(ack + ensured.trace, Succeed(ct, sc));
    AckIsNoCompletion(ct.key);
    EnsureReportsNothing(pt, sc);
    CompletionsAppend(ack, ensured.trace);
    SucceedReports(ct, sc);
    PrependCompletions(ack + ensured.trace, Succeed(ct, sc));
  }
}

=== FILE: text.dfy ===
/**
 The pieces of Go's `strings` and `strconv` packages the core relies on:
 splitting on a one-character separator, joining, decimal formatting of an
 `int` (`strconv.Itoa`) and replacing "." with "%2E" (`strings.Replace` with
 count -1). Each comes with the inverse it is meant to have.
 */
module Text {

  /** Number of occurrences of `c` in `s`. */
  function Count(s: string, c: char): nat
  {
    if |s| == 0 then 0 else (if s[0] == c then 1 else 0) + Count(s[1..], c)
  }

  lemma {:induction false} CountZero(s: string, c: char)
    ensures Count(s, c) == 0 <==> c !in s
  {
    if |s| > 0 {
      CountZero(s[1..], c);
      assert s == [s[0]] + s[1..];
    }
  }

  // ---------------------------------------------------------------- Split / Join

  /** `strings.Split(s, sep)` for a one-character separator: the pieces
      between separators, in order; a string without `sep` is one piece. */
  function Split(s: string, sep: char): (parts: seq<string>)
    ensures |parts| == Count(s, sep) + 1
    ensures forall i :: 0 <= i < |parts| ==> sep !in parts[i]
  {
    if |s| == 0 then [""]
    else
      var rest := Split(s[1..], sep);
      if s[0] == sep then [""] + rest
      else [[s[0]] + rest[0]] + rest[1..]
  }

  /** `strings.Join(parts, sep)`. */
  function Join(parts: seq<string>, sep: char): string
  {
    if |parts| == 0 then ""
    else if |parts| == 1 then parts[0]
    else parts[0] + [sep] + Join(parts[1..], sep)
  }

  /** Splitting loses nothing: joining the pieces gives the string back. */
  lemma {:induction false} JoinSplit(s: string, sep: char)
    ensures Join(Split(s, sep), sep) == s
  {
    if |s| > 0 {
      var rest := Split(s[1..], sep);
      JoinSplit(s[1..], sep);
      if s[0] == sep {
        assert ([""] + rest)[1..] == rest;
      } else {
        var parts := [[s[0]] + rest[0]] + rest[1..];
        assert parts[1..] == rest[1..];
        if |rest| > 1 {
          assert Join(rest, sep) == rest[0] + [sep] + Join(rest[1..], sep);
        }
      }
    }
  }

  /** A string has more than one piece exactly when it contains the separator. */
  lemma SplitHasSeveralPieces(s: string, sep: char)
    ensures |Split(s, sep)| > 1 <==> sep in s
  {
    CountZero(s, sep);
  }

  /** The last piece of a split. */
  function LastOf(s: string, sep: char): string
  {
    var parts := Split(s, sep);
    parts[|parts| - 1]
  }

  /** The last piece of a split is what follows the last separator: a
      suffix of `s` without `sep`, preceded by `sep` unless it is all of `s`. */
  lemma {:induction false} LastPiece(s: string, sep: char)
    ensures |LastOf(s, sep)| <= |s|
    ensures s[|s| - |LastOf(s, sep)|..] == LastOf(s, sep)
    ensures sep !in s ==> LastOf(s, sep) == s
    ensures sep in s ==> |LastOf(s, sep)| < |s| && s[|s| - |LastOf(s, sep)| - 1] == sep
  {
    if |s| > 0 {
      var tail := s[1..];
      LastPiece(tail, sep);
      SplitHasSeveralPieces(tail, sep);
      var last := LastOf(tail, sep);
      assert s == [s[0]] + tail;
      if s[0] == sep || |Split(tail, sep)| > 1 {
        LastOfCons(s, sep);
        assert LastOf(s, sep) == last;
        assert s[|s| - |last|..] == tail[|tail| - |last|..];
        if sep in tail {
          assert s[|s| - |last| - 1] == tail[|tail| - |last| - 1];
        }
      } else {
        LastOfCons(s, sep);
        assert LastOf(s, sep) == s;
      }
    }
  }

  /** How the last piece of `s` relates to the last piece of its tail. */
  lemma LastOfCons(s: string, sep: char)
    requires |s| > 0
    ensures s[0] == sep || |Split(s[1..], sep)| > 1 ==> LastOf(s, sep) == LastOf(s[1..], sep)
    ensures s[0] != sep && |Split(s[1..], sep)| == 1 ==> LastOf(s, sep) == [s[0]] + LastOf(s[1..], sep)
  {
  }

  // ---------------------------------------------------------------- decimal numbers

  predicate IsDigit(c: char)
  {
    '0' <= c <= '9'
  }

  function DigitChar(d: nat): (c: char)
    requires d < 10
    ensures IsDigit(c) && c as int - '0' as int == d
  {
    ('0' as int + d) as char
  }

  /** The decimal digits of `n`, most significant first, without leading zeros. */
  function Digits(n: nat): (s: string)
    ensures |s| >= 1
    ensures forall i :: 0 <= i < |s| ==> IsDigit(s[i])
    ensures s[0] == '0' <==> n == 0
    ensures n == 0 ==> s == "0"
  {
    if n < 10 then [DigitChar(n)] else Digits(n / 10) + [DigitChar(n % 10)]
  }

  /** `strconv.Itoa`: a "-" for negative numbers, then the digits. */
  function Itoa(n: int): string
  {
    if n < 0 then "-" + Digits(-n) else Digits(n)
  }

  /** The canonical decimal form: an optional "-", then digits without a
      leading zero (and no "-0"). */
  predicate IsDecimal(s: string)
  {
    var digits := Unsigned(s);
    && |digits| >= 1
    && (forall i :: 0 <= i < |digits| ==> IsDigit(digits[i]))
    && (digits[0] == '0' ==> s == "0")
  }

  /** `s` without its leading "-", if any. */
  function Unsigned(s: string): string
  {
    if |s| > 0 && s[0] == '-' then s[1..] else s
  }

  /** The value of a string of digits. */
  function DigitsValue(s: string): nat
    requires forall i :: 0 <= i < |s| ==> IsDigit(s[i])
  {
    if |s| == 0 then 0
    else
      assert IsDigit(s[|s| - 1]);
      DigitsValue(s[..|s| - 1]) * 10 + (s[|s| - 1] as int - '0' as int)
  }

  /** `strconv.Atoi` on a canonical decimal string. */
  function Atoi(s: string): int
    requires IsDecimal(s)
  {
    if s[0] == '-' then -(DigitsValue(Unsigned(s)) as int) else DigitsValue(Unsigned(s))
  }

  lemma {:induction false} DigitsRoundTrip(n: nat)
    ensures DigitsValue(Digits(n)) == n
  {
    if n >= 10 {
      DigitsRoundTrip(n / 10);
      var s := Digits(n);
      assert s[..|s| - 1] == Digits(n / 10);
    }
  }

  /** `Itoa` is canonical, and reading it back gives the number. */
  lemma ItoaRoundTrip(n: int)
    ensures IsDecimal(Itoa(n))
    ensures Atoi(Itoa(n)) == n
  {
    var s := Itoa(n);
    if n < 0 {
      assert s[1..] == Digits(-n);
      DigitsRoundTrip(-n);
    } else {
      DigitsRoundTrip(n);
    }
  }

  // ---------------------------------------------------------------- "." -> "%2E"

  /** `strings.Replace(t, ".", "%2E", -1)`. */
  function ReplaceDots(t: string): (r: string)
    ensures '.' !in r
    ensures |r| == |t| + 2 * Count(t, '.')
    ensures '.' !in t ==> r == t
  {
    if |t| == 0 then ""
    else (if t[0] == '.' then "%2E" else [t[0]]) + ReplaceDots(t[1..])
  }

  /** The inverse direction: every "%2E" becomes "." again. */
  function RestoreDots(s: string): string
  {
    if |s| == 0 then ""
    else if |s| >= 3 && s[..3] == "%2E" then "." + RestoreDots(s[3..])
    else [s[0]] + RestoreDots(s[1..])
  }

  /** `s` holds no "%2E" of its own (url.PathEscape never produces one:
      it leaves "." alone and writes "%" as "%25"). */
  predicate NoEscapedDot(s: string)
  {
    forall i :: 0 <= i < |s| - 2 ==> !(s[i] == '%' && s[i + 1] == '2' && s[i + 2] == 'E')
  }

  lemma ReplaceDotsHead(t: string)
    requires |t| > 0
    ensures ReplaceDots(t)[0] == (if t[0] == '.' then '%' else t[0])
  {
  }

  /** Dropping the first character keeps the property. */
  lemma NoEscapedDotTail(t: string)
    requires |t| > 0 && NoEscapedDot(t)
    ensures NoEscapedDot(t[1..])
  {
    forall i | 0 <= i < |t[1..]| - 2
      ensures !(t[1..][i] == '%' && t[1..][i + 1] == '2' && t[1..][i + 2] == 'E')
    {
      assert t[1..][i] == t[i + 1];
    }
  }

  /** A character other than "." followed by the replaced rest never
      starts a "%2E" that was not in the input. */
  lemma NoNewEscape(t: string)
    requires |t| > 0 && t[0] != '.' && NoEscapedDot(t)
    ensures var r := [t[0]] + ReplaceDots(t[1..]);
      !(|r| >= 3 && r[..3] == "%2E")
  {
    var rest := ReplaceDots(t[1..]);
    var r := [t[0]] + rest;
    if |r| >= 3 && r[..3] == "%2E" {
      assert r[0] == '%' && r[1] == '2' && r[2] == 'E';
      assert rest[0] == '2';
      ReplaceDotsHead(t[1..]);
      assert t[1] == '2';
      var tail := ReplaceDots(t[2..]);
      assert t[1..][1..] == t[2..];
      assert rest == [t[1]] + tail;
      assert tail[0] == 'E';
      ReplaceDotsHead(t[2..]);
      assert false;
    }
  }

  /** Replacing dots loses nothing when the input had no "%2E" of its own. */
  lemma {:induction false} RestoreReplace(t: string)
    requires NoEscapedDot(t)
    ensures RestoreDots(ReplaceDots(t)) == t
  {
    if |t| > 0 {
      var rest := ReplaceDots(t[1..]);
      NoEscapedDotTail(t);
      RestoreReplace(t[1..]);
      if t[0] == '.' {
        assert ("%2E" + rest)[..3] == "%2E";
        assert ("%2E" + rest)[3..] == rest;
      } else {
        var r := [t[0]] + rest;
        NoNewEscape(t);
        assert r[1..] == rest;
        assert RestoreDots(r) == [t[0]] + RestoreDots(rest);
        assert t == [t[0]] + t[1..];
      }
    }
  }
}

=== FILE: utils.dfy ===
/**
 The helpers of src/utils.go: formatting a project identifier, escaping it
 for a URL path, and reading a required environment variable.
 */
module Utils {
  import opened Domain
  import opened Text

  /** The dynamic value handed to `parseID` (a Go `interface{}`). */
  datatype IdValue = IntId(n: int) | StringId(s: string) | OtherId

  /** `parseID`: an int becomes its decimal form, a string stays as it is,
      anything else is an error. */
  function ParseId(id: IdValue): (r: Result<string>)
    ensures id.IntId? ==> r.Ok? && IsDecimal(r.value) && Atoi(r.value) == id.n
    ensures id.StringId? ==> r == Ok(id.s)
    ensures id.OtherId? ==> r == Err(InvalidIdType)
  {
    match id
    case IntId(n) =>
      ItoaRoundTrip(n);
      Ok(Itoa(n))
    case StringId(s) => Ok(s)
    case OtherId => Err(InvalidIdType)
  }

  /** `pathEscape`: `url.PathEscape` (left abstract as `escape`), then every
      "." written as "%2E". No "." survives, and nothing else is lost. */
  function PathEscape(s: string, escape: string -> string): (r: string)
    ensures '.' !in r
    ensures NoEscapedDot(escape(s)) ==> RestoreDots(r) == escape(s)
  {
    var escaped := escape(s);
    assert NoEscapedDot(escaped) ==> RestoreDots(ReplaceDots(escaped)) == escaped by {
      if NoEscapedDot(escaped) {
        RestoreReplace(escaped);
      }
    }
    ReplaceDots(escaped)
  }

  /** `ValidateEnv`: the value of a variable that is set and non-empty;
      an unset variable and an empty one are distinct errors. */
  function ValidateEnv(env: map<string, string>, name: string): (r: Result<string>)
    ensures r.Ok? <==> name in env && env[name] != ""
    ensures r.Ok? ==> r.value == env[name]
    ensures name !in env ==> r == Err(EnvNotSet(name))
    ensures name in env && env[name] == "" ==> r == Err(EnvEmpty(name))
  {
    if name !in env then Err(EnvNotSet(name))
    else if env[name] == "" then Err(EnvEmpty(name))
    else Ok(env[name])
  }
}
